=== FILE: README.md ===
# Token amounts, gas limits and the token-wrapper and withdrawal flows, in Dafny

This project models the decision-making core of a DAO governance front end:

- **Decimal converter** (`MathUtils`, `Digits`). This is `splitDecimalNumber`, `toDecimals` and `fromDecimals` from `src/utils/math-utils.js`. They turn a human amount such as "1.5" into a token's integer amount at some number of decimals, and back. They do it purely by slicing and padding strings. Strings are `seq<char>`, sequences of code points, so lengths count code points where JavaScript counts UTF-16 code units. The value a digit string denotes is used only to state what the round trips preserve.
- **Gas recommender** (`TxUtils`). This is `getRecommendedGasLimit` and its per-chain profiles from `src/utils/tx-utils.js`. The provider's estimate is an input: a number of gas units, or a failed estimation.
- **Token-wrapper actions** (`TokenWrapperActions`). These are `getAllowance`, `approve`, `approveTokenAmount`, `wrap` and `unwrap`, plus the helpers `attachTrxMetadata` and `imposeGasLimit`. They come from `src/apps/token-wrapper/hooks/useActions.js` and its copy `src/token-wrapper/hooks/useActions.js`. The copy has the same action bodies but does not expose `unwrap`. Everything an action gets from a collaborator is an input:
  - the contract handle, or none;
  - the connected app, or none;
  - the intent the app returns;
  - the token symbol;
  - the allowance;
  - whether the component is still mounted.

  `Some(txs)` means the completion callback ran once, with `txs`. `None` means it never ran.
- **Provider reducers** (`TokenWrapperProvider`). These are `reduceHolders` and `reduceToken` from `src/token-wrapper/providers/TokenWrapperProvider.js`.
- **Withdrawal form** (`Withdrawal`). This is the logic of `src/apps/finance/components/ModalFlows/Withdrawal.js`:
  - the offered tokens;
  - the field handlers;
  - submit validation;
  - the maximum button;
  - the message priority;
  - the `disabled` flag.

  `isAddress` is an input. A successful submit is the request that would be handed to `onWithdraw`.

Four behaviours of the code that are easy to misread:

- **`toDecimals` at scale 0.** `toDecimals` answers "0" when the whole part is empty and *either* the fraction is empty *or* the scale is 0. So ".5" at scale 0 gives "0", even with truncation off (`MathUtils.ToDecimalsScaleZeroDropsFraction`). The withdrawal form therefore accepts ".5" of a 0-decimals token as an amount of "0" (`Withdrawal.SubmitExamples`).
- **`fromDecimals` with truncation off.** It keeps the untrimmed scaled digits only when the input itself has a fraction. Otherwise it trims as usual (`MathUtils.FromDecimalsCases`).
- **The round trip.** Scaling up then down gives the input back for canonical decimals with at most as many fraction digits as the scale (`MathUtils.RoundTripToFrom`). Canonical means no leading zeros in the whole part, no trailing zeros in the fraction, and "0" for an empty whole part. Other spellings come back canonical; with more fraction digits than the scale, truncation drops the surplus, so "1.234" at scale 2 comes back as "1.23" (`MathUtils.RoundTripDropsSurplus`).
- **The upper gas bound.** The code rounds the product with `Math.round`, halves going up. For the three profiles the product is already an integer: 14,250,000 and 28,500,000 (`TxUtils.ProfileBounds`).

## Model

| member | source | states |
|---|---|---|
| Digits.TrimLeadingZeros | src/utils/math-utils.js:29 | the result is the input minus a run of leading '0's and does not start with '0' |
| Digits.TrimTrailingZeros | src/utils/math-utils.js:30 | the result is the input minus a run of trailing '0's and does not end with '0' |
| Digits.PadStartZeros | src/utils/math-utils.js:49 | `padStart(n, '0')` is the input preceded by just enough '0's to reach length n, and the input itself when already that long |
| Digits.PadEndZeros | src/utils/math-utils.js:84 | `padEnd(n, '0')` is the input followed by just enough '0's to reach length n, and the input itself when already that long |
| Digits.NatToDecimal | src/apps/token-wrapper/hooks/useActions.js:98 | `toString(10)` of a natural is a non-empty digit string without leading zeros (or "0") that denotes that natural |
| Digits.NatToDecimalPow10 | src/token-wrapper/providers/TokenWrapperProvider.js:35 | 10^d is written as "1" followed by d zeros |
| MathUtils.FirstPiece | src/utils/math-utils.js:27 | `split('.')[0]` never holds a '.'; on a + '.' + x with '.'-free a it is a (the MathUtils.FirstPieceOfDotted row) |
| MathUtils.FirstPieceOfDotted | src/utils/math-utils.js:27 | for '.'-free a, the first piece of a + '.' + x is a and the rest after the first '.' is x |
| MathUtils.AfterFirstDot | src/utils/math-utils.js:27 | when a '.' is present the input is first piece, '.', rest; otherwise the rest is empty |
| MathUtils.SplitDecimalNumber | src/utils/math-utils.js:26-32 | neither part holds a '.'; the whole part does not start with '0' and the fraction does not end with '0' |
| MathUtils.SplitDropsOnlyZeros | src/utils/math-utils.js:27-31 | the whole part is the first piece minus a run of leading '0's; the fraction is the second piece minus a run of trailing '0's |
| MathUtils.SplitIgnoresSecondDot | src/utils/math-utils.js:27 | text after a second '.' never reaches either part |
| MathUtils.SplitCanonical | src/utils/math-utils.js:26-32 | splitting the canonical text of (whole, fraction) gives them back |
| MathUtils.SplitDigits | src/utils/math-utils.js:26-32 | a digit string splits into its zero-trimmed self and no fraction |
| MathUtils.ToDecimals | src/utils/math-utils.js:77-91 | `toDecimals`: split, then scale up; its properties are the MathUtils.ToDecimals* and RoundTrip* rows |
| MathUtils.ScaleUp | src/utils/math-utils.js:79-90 | the scaling of `toDecimals` after the split: whole digits, fraction cut or zero-filled to the scale, surplus after a '.'; its properties are the MathUtils.ScaleUpCases row |
| MathUtils.ToDecimalsCases | src/utils/math-utils.js:77-91 | `toDecimals`, case by case: "0", whole + fraction + zero fill, whole + cut fraction, or that plus '.' and the surplus digits |
| MathUtils.ScaleUpCases | src/utils/math-utils.js:79-90 | the same four cases stated on the split parts |
| MathUtils.ToDecimalsTruncates | src/utils/math-utils.js:83-90 | with truncation the output never holds a '.' and has exactly len(whole) + decimals characters |
| MathUtils.ToDecimalsSignalsExcess | src/utils/math-utils.js:79-89 | without truncation a '.' appears iff the fraction has more digits than decimals, except an empty whole at scale 0 |
| MathUtils.ToDecimalsKeepsExcess | src/utils/math-utils.js:84-90 | the untruncated output is the truncated one, plus '.' and the surplus digits when there are any |
| MathUtils.ToDecimalsOfZero | src/utils/math-utils.js:78-81 | "", "0" and "000.000" give "0" at every scale |
| MathUtils.ToDecimalsExample | src/utils/math-utils.js:77-91 | "1.23456789" at 6 decimals gives "1234567.89" untruncated and "1234567" truncated |
| MathUtils.ToDecimalsScaleZeroDropsFraction | src/utils/math-utils.js:79-81 | at scale 0 ".5" gives "0" while "1.5" keeps its surplus as "1.5" |
| MathUtils.FromDecimals | src/utils/math-utils.js:43-66 | `fromDecimals`: split, then scale down; its properties are the MathUtils.FromDecimals* and RoundTrip* rows |
| MathUtils.ScaleDown | src/utils/math-utils.js:45-65 | the scaling of `fromDecimals` after the split: integer part, '.', scaled digits trimmed or not; its properties are the MathUtils.ScaleDownCases row |
| MathUtils.FromDecimalsCases | src/utils/math-utils.js:43-66 | `fromDecimals`, case by case: "0", integer part + '.' + untrimmed scaled digits + input fraction, integer part + '.' + trimmed scaled digits, or the integer part alone |
| MathUtils.ScaleDownCases | src/utils/math-utils.js:45-65 | the same cases stated on the split parts |
| MathUtils.FromDecimalsIntegerPart | src/utils/math-utils.js:49-65 | the integer part of the result is never empty, and is "0" when the whole digits fit in the decimals |
| MathUtils.FromDecimalsTrimsScaledDigits | src/utils/math-utils.js:59-65 | with truncation, a result with a '.' never ends in '0', and all-zero scaled digits leave no '.' |
| MathUtils.FromDecimalsIgnoresInputFraction | src/utils/math-utils.js:54-65 | with truncation, amounts with the same whole digits give the same result |
| MathUtils.FromDecimalsKeepsInputFraction | src/utils/math-utils.js:54-57 | without truncation, an input fraction is appended after all scaled digits |
| MathUtils.RoundTripToFrom | src/utils/math-utils.js:43-91 | a canonical decimal with at most d fraction digits is unchanged by toDecimals then fromDecimals |
| MathUtils.RoundTripDropsSurplus | src/utils/math-utils.js:43-91 | the fraction bound is needed: canonical "1.234" scaled up to 2 decimals with truncation and back down is "1.23" |
| MathUtils.RoundTripFromTo | src/utils/math-utils.js:43-91 | an integer amount scaled down then up is a digit string equal to it up to leading zeros |
| TxUtils.RoundTimes | src/utils/tx-utils.js:33 | `Math.round(x * q)` is the integer within one half of x·q, halves rounded up |
| TxUtils.UpperGasLimit | src/utils/tx-utils.js:33 | the upper gas bound, the block gas limit times 0.95 rounded; its values are the TxUtils.ProfileBounds row |
| TxUtils.GetRecommendedGasLimit | src/utils/tx-utils.js:23-42 | fails iff the chain has no gas profile; the other cases are the TxUtils.EstimationFailureFallsBack, LargeEstimatePassesThrough and SmallEstimateIsClamped rows |
| TxUtils.UnsupportedNetworkFails | src/utils/tx-utils.js:5-24 | exactly chains 1, 10 and 100 have a profile; any other chain fails whatever the estimate |
| TxUtils.EstimationFailureFallsBack | src/utils/tx-utils.js:27-32 | a failed estimation returns the default 450,000 instead of failing |
| TxUtils.ProfileBounds | src/utils/tx-utils.js:1-33 | the upper bound is 14,250,000 on chain 1 and 28,500,000 on chains 10 and 100; every fuzz factor is at least 1 |
| TxUtils.LargeEstimatePassesThrough | src/utils/tx-utils.js:35-37 | an estimate above the upper bound is returned uncapped |
| TxUtils.SmallEstimateIsClamped | src/utils/tx-utils.js:39-41 | otherwise the result is min(fuzzed estimate, upper bound) and lies between the estimate and the bound |
| TxUtils.RoundTimesAtLeast | src/utils/tx-utils.js:39 | rounding after a factor of at least 1 never goes below the estimate |
| TxUtils.RoundTimesMonotonic | src/utils/tx-utils.js:39 | rounding after a fixed factor is monotonic |
| TxUtils.RecommendationMonotonic | src/utils/tx-utils.js:23-42 | a larger estimate never gets a smaller recommendation |
| TxUtils.GasExamples | src/utils/tx-utils.js:23-42 | 1,000,000 gives 1,500,000 on chain 100 and 1,250,000 on chain 1; 29,000,000 passes through on chain 100 |
| TokenWrapperActions.AttachTrxMetadata | src/apps/token-wrapper/hooks/useActions.js:152-158 | each transaction gains the description and type; nothing else changes; order and length are kept |
| TokenWrapperActions.WithGasLimit | src/apps/token-wrapper/hooks/useActions.js:163-166 | each transaction's gas limit is replaced; nothing else changes |
| TokenWrapperActions.ImposeGasLimit | src/apps/token-wrapper/hooks/useActions.js:160-168 | the intent keeps its other fields and every transaction gets the gas limit |
| TokenWrapperActions.Approve | src/apps/token-wrapper/hooks/useActions.js:91-112 | nothing iff no contract or no app address; else one `approve(app, amount)` transaction to the contract, from the account, gas 250,000, whose amount argument denotes the amount |
| TokenWrapperActions.GetAllowance | src/apps/token-wrapper/hooks/useActions.js:25-43 | nothing iff the app or the contract is missing; else the allowance of (account, app address) |
| TokenWrapperActions.RunWrapIntent | src/apps/token-wrapper/hooks/useActions.js:45-89 | the shared body of wrap and unwrap: a result iff there is a connected app and the component is mounted, and then the app's transactions for the method with gas 1,000,000, the description and type '' |
| TokenWrapperActions.Wrap | src/apps/token-wrapper/hooks/useActions.js:45-66 | the callback runs iff there is a connected app and the component is mounted, with the app's 'deposit' transactions decorated and gas-capped |
| TokenWrapperActions.Unwrap | src/apps/token-wrapper/hooks/useActions.js:68-89 | the same for 'withdraw' |
| TokenWrapperActions.ApproveTokenAmount | src/apps/token-wrapper/hooks/useActions.js:114-137 | the callback runs iff contract, app, a non-empty app address and mounted; with exactly the approve transaction carrying the APPROVE_TOKEN description and type '' |
| TokenWrapperActions.TornDownContextNeverFires | src/apps/token-wrapper/hooks/useActions.js:45-137 | when unmounted, no action calls back |
| TokenWrapperActions.MissingCollaboratorsProduceNothing | src/apps/token-wrapper/hooks/useActions.js:25-119 | with no contract or no app there is no allowance and no approval callback |
| TokenWrapperActions.WrapForcesGasLimit | src/apps/token-wrapper/hooks/useActions.js:45-89 | every wrap and unwrap transaction has gas 1,000,000 and type '' |
| TokenWrapperActions.ImposeGasLimitOverrides | src/apps/token-wrapper/hooks/useActions.js:160-168 | imposing two gas limits in turn is imposing the second |
| TokenWrapperActions.MetadataAndGasCommute | src/apps/token-wrapper/hooks/useActions.js:152-168 | decorating and gas-capping commute |
| TokenWrapperActions.ExposedActions | src/apps/token-wrapper/hooks/useActions.js:139-149 | the apps hook exposes exactly getAllowance, approveTokenAmount, wrap and unwrap; the standalone hook exactly the first three |
| TokenWrapperProvider.MapHolders | src/token-wrapper/providers/TokenWrapperProvider.js:15-21 | each output entry is the {address, balance} of the input entry at the same place |
| TokenWrapperProvider.InsertByBalance | src/token-wrapper/providers/TokenWrapperProvider.js:22 | inserting into a list sorted by balance keeps it sorted and adds exactly that holder |
| TokenWrapperProvider.SortByBalanceDesc | src/token-wrapper/providers/TokenWrapperProvider.js:22 | the result is sorted by balance, largest first, and is a permutation of the input |
| TokenWrapperProvider.ReduceHolders | src/token-wrapper/providers/TokenWrapperProvider.js:11-25 | [] for a missing list; otherwise a sorted permutation of the mapped holders |
| TokenWrapperProvider.ReduceHoldersKeepsHolders | src/token-wrapper/providers/TokenWrapperProvider.js:15-24 | every output holder comes from an input holder and every input holder appears |
| TokenWrapperProvider.ReduceToken | src/token-wrapper/providers/TokenWrapperProvider.js:26-38 | null iff the token is missing; otherwise numDecimals = decimals, the base is written "1" + decimals zeros, totalSupply is kept, other fields are unchanged |
| TokenWrapperProvider.DecimalsBaseIsOneToken | src/token-wrapper/providers/TokenWrapperProvider.js:35 | the base read at the token's scale is "1", and "1" scaled up is the base |
| Withdrawal.NonZeroTokens | src/apps/finance/components/ModalFlows/Withdrawal.js:53-55 | a token is offered iff it is in the list with a non-zero balance |
| Withdrawal.NonZeroTokensAppend | src/apps/finance/components/ModalFlows/Withdrawal.js:53-55 | filtering distributes over concatenation, so it keeps the order |
| Withdrawal.NonZeroTokensIdempotent | src/apps/finance/components/ModalFlows/Withdrawal.js:53-55 | filtering twice is filtering once |
| Withdrawal.TokenAt | src/apps/finance/components/ModalFlows/Withdrawal.js:85 | a token exists at the index iff the index is in range (-1 is not), and it is the token at that index |
| Withdrawal.HandleAmountUpdate | src/apps/finance/components/ModalFlows/Withdrawal.js:56-63 | the amount takes the new value with no error; the other fields are unchanged |
| Withdrawal.HandleSelectToken | src/apps/finance/components/ModalFlows/Withdrawal.js:64-66 | only the selected index changes |
| Withdrawal.HandleRecipientUpdate | src/apps/finance/components/ModalFlows/Withdrawal.js:67-74 | the recipient takes the new value with no error; the other fields are unchanged |
| Withdrawal.HandleReferenceUpdate | src/apps/finance/components/ModalFlows/Withdrawal.js:75-77 | only the reference changes |
| Withdrawal.TrimStart | src/apps/finance/components/ModalFlows/Withdrawal.js:86 | the result is a suffix after white space only and does not start with white space |
| Withdrawal.TrimEnd | src/apps/finance/components/ModalFlows/Withdrawal.js:86 | the result is a prefix before white space only and does not end with white space |
| Withdrawal.Trim | src/apps/finance/components/ModalFlows/Withdrawal.js:86 | `trim()` is a slice that drops only white space at the ends and leaves none there |
| Withdrawal.TrimNoOp | src/apps/finance/components/ModalFlows/Withdrawal.js:86 | a string with no white space at either end is unchanged |
| Withdrawal.TrimIdempotent | src/apps/finance/components/ModalFlows/Withdrawal.js:86 | trimming twice is trimming once |
| Withdrawal.NumberExceeds | src/apps/finance/components/ModalFlows/Withdrawal.js:92 | `Number(adjustedAmount) > token.balance`, compared exactly on the digits; its use is the Withdrawal.HandleSubmit, BalanceCheckedBeforeDecimals and SubmitExamples rows |
| Withdrawal.HandleSubmit | src/apps/finance/components/ModalFlows/Withdrawal.js:78-126 | throws iff no token is at the index; otherwise bad recipient, then too big, then '.', else the request (token address, trimmed recipient, converted amount, reference) |
| Withdrawal.SubmittedRequestIsValid | src/apps/finance/components/ModalFlows/Withdrawal.js:104-125 | an accepted request has a valid trimmed address, a non-zero listed token and a '.'-free amount that, when it is a digit string, is within the balance; other strings such as "-1" pass, because `Number` of them is NaN or not above the balance |
| Withdrawal.RecipientCheckedFirst | src/apps/finance/components/ModalFlows/Withdrawal.js:94-102 | a bad recipient is reported whatever the amount, leaving the amount field as it was |
| Withdrawal.BalanceCheckedBeforeDecimals | src/apps/finance/components/ModalFlows/Withdrawal.js:104-113 | an amount too big is reported as such even when it also has too many decimals |
| Withdrawal.SubmitExamples | src/apps/finance/components/ModalFlows/Withdrawal.js:89-114 | "1.5" at 0 decimals is too big for balance 1 and too precise for balance 2; ".5" is accepted as "0" |
| Withdrawal.SetMaxUserBalance | src/apps/finance/components/ModalFlows/Withdrawal.js:128-138 | throws iff no token is at the index; otherwise only the amount value changes, the error is kept, and the new amount scales back to the balance exactly |
| Withdrawal.MaxAmountDenotesBalance | src/apps/finance/components/ModalFlows/Withdrawal.js:131-134 | the balance written at the token's scale and scaled back up denotes the balance |
| Withdrawal.MaxThenSubmit | src/apps/finance/components/ModalFlows/Withdrawal.js:78-138 | with a valid recipient, maximum then submit is accepted and withdraws exactly the balance |
| Withdrawal.ErrorMessage | src/apps/finance/components/ModalFlows/Withdrawal.js:155-162 | the exact message texts, with priority recipient > balance > decimals, and no message iff neither field has a shown error |
| Withdrawal.Disabled | src/apps/finance/components/ModalFlows/Withdrawal.js:164-170 | enabled iff no message, both fields filled, a token selected and enough fee balance |
| Withdrawal.InitialStateDisabled | src/apps/finance/components/ModalFlows/Withdrawal.js:33-44 | the form opens well formed, with no message and submit disabled |
| Withdrawal.HandlersPreserveWellFormed | src/apps/finance/components/ModalFlows/Withdrawal.js:56-138 | each field only ever carries its own kinds of error |
| Withdrawal.MessageIffError | src/apps/finance/components/ModalFlows/Withdrawal.js:155-162 | in a well-formed form a message shows iff some field has an error |
| Withdrawal.RejectionShowsMessage | src/apps/finance/components/ModalFlows/Withdrawal.js:94-170 | a rejected submit always leaves a message and disables the button |
| Withdrawal.EditingClearsItsMessage | src/apps/finance/components/ModalFlows/Withdrawal.js:56-74 | editing the recipient clears its message; editing the amount leaves at most the recipient's |
| Withdrawal.EnabledFormCanThrow | src/apps/finance/components/ModalFlows/Withdrawal.js:164-170 | `disabled` only compares the selection with the null index: a form whose index 1 is past its one non-zero token is enabled, and its submit throws |

## Left out

- `lerp` in `src/utils/math-utils.js`: floating-point interpolation, unrelated to amounts.
- Withdrawal.NumberExceeds: `Number(adjustedAmount) > token.balance` is compared exactly, for strings of digits with at most one '.'. JavaScript's double rounding is not modelled. Neither are the other numeric spellings `Number` accepts (exponents, hex, surrounding white space, "Infinity"): such strings count as NaN, and so as not too big.
- TxUtils.RoundTimes: the factors 1.25, 1.5 and 0.95 are exact ratios, not doubles. The ethers BigNumber estimate is a natural number.
- TxUtils.GetRecommendedGasLimit: the `console.error` diagnostic is dropped. The TypeError that destructuring an undefined profile throws is the `UnsupportedNetwork` failure.
- `new BN(...)` and `parseInt`: balances, decimals, total supply and amounts are natural numbers throughout. `numDecimals` and `decimals` therefore coincide.
- TokenWrapperProvider.SortByBalanceDesc: the order among holders with equal balances is not stated. The model's insertion sort keeps input order, like JavaScript's stable sort.
- TokenWrapperProvider.ReduceToken: the fields spread by `...token` beyond id, name, symbol, decimals and totalSupply are not modelled. A falsy `totalSupply` is `None`.
- Radspec descriptions are a datatype (template key plus symbol) rather than text. `encodeFunctionData` is the method name and arguments rather than ABI bytes.
- `getContract`, `tokenContract.symbol()`, `tokenContract.allowance`, `connectedApp.intent`, `isAddress` and `mounted()` are inputs. So is the fee data's `enoughFeeTokenBalance`.
- No combined "check allowance, then approve, then wrap" flow: no code composes these actions; each is independent.
- React and async plumbing are not modelled:
  - hooks, memoisation and subscriptions;
  - the provider's effects with their `isSyncing`/`loading`/`error` flags;
  - focus handling in the form;
  - the `next()` calls;
  - the Max button's visibility;
  - the empty-token-list notice.

  Awaits are flattened into straight-line functions.
- Withdrawal.HandleSubmit: the `onWithdraw` callback is not modelled; the request it would receive is the result.
- Withdrawal.HandleSubmit: the amount goes through MathUtils.ToDecimals, so it shares that member's code-point lengths. An amount with a character outside the Basic Multilingual Plane can be accepted where JavaScript rejects it for its decimals: "1." followed by an emoji, at 1 decimal, is accepted by the model, while JavaScript's `toDecimals` splits the emoji's surrogate pair around a '.'.
- MathUtils.ToDecimals: lengths, `padEnd` and `slice` count code points, where JavaScript counts UTF-16 code units. The two agree on strings without characters outside the Basic Multilingual Plane; for others the cut of the fraction can differ.
- MathUtils.ScaleUp: the same code-point counting as MathUtils.ToDecimals, for the same reason: `string` is a sequence of code points, and the converter's inputs are digit strings in practice.
- TokenWrapperActions.Wrap: `connectedApp.intent` is assumed to resolve. If it rejects, the callback never runs although the contract says it does.
- TokenWrapperActions.Unwrap: the same assumption about `connectedApp.intent`.
- TokenWrapperActions.ApproveTokenAmount: `tokenContract.symbol()` is assumed to resolve. If it rejects, the callback never runs although the contract says it does.
- TokenWrapperActions.GetAllowance: `tokenContract.allowance` is assumed to resolve. If it rejects, the returned promise rejects instead of giving the allowance.

=== FILE: actions.dfy ===
/** The token-wrapper transaction builders of the two `useActions.js` hooks
    (src/apps/token-wrapper/hooks/useActions.js and its near-duplicate
    src/token-wrapper/hooks/useActions.js; the second has no `unwrap`).

    The hooks are asynchronous; here each action is a straight-line function.
    Everything the hook reads from a collaborator is an input: the contract
    handle `getContract` resolved (or not), the connected app (or not), the
    transactions `connectedApp.intent` returns, the token symbol, the
    allowance the contract reports, and whether `mounted()` is still true
    when the flow completes. A result `Some(txs)` means "onDone was called
    once, with txs"; `None` means onDone was never called.
 */
module TokenWrapperActions {
  import opened Options
  import opened Addresses
  import Digits

  const ApproveGasLimit: nat := 250000
  const WrapGasLimit: nat := 1000000

  /** Transaction call data. ABI encoding belongs to the web3 library, so an
      encoded call is kept as the method name and its arguments; call data
      produced by the connected app is opaque. */
  datatype CallData = Call(methodName: string, args: seq<string>) | Opaque(hex: string)

  /** A radspec description: the template key and the values interpolated into it. */
  datatype Description = WrapDescription | UnwrapDescription | ApproveTokenDescription(tokenSymbol: string)

  /** One transaction object. `otherFields` stands for every further property
      the object carries, which the spreads `...tx` copy unchanged. */
  datatype Tx = Tx(
    to: Address,
    from: Address,
    data: CallData,
    gasLimit: Option<nat>,
    description: Option<Description>,
    txType: Option<string>,
    otherFields: map<string, string>)

  /** What `connectedApp.intent` returns: the transactions and any other fields. */
  datatype Intent = Intent(transactions: seq<Tx>, otherFields: map<string, string>)

  /** The arguments of `connectedApp.intent(method, args, { actAs })`. */
  datatype IntentRequest = IntentRequest(methodName: string, args: seq<string>, actAs: Address)

  datatype TokenContract = TokenContract(address: Address)
  datatype ConnectedApp = ConnectedApp(address: Address)

  /** The hook's context when an action runs. `intentOf` is the connected
      app's `intent` method; `mounted` is what `mounted()` answers when the
      flow completes. */
  datatype Env = Env(
    account: Address,
    connectedApp: Option<ConnectedApp>,
    intentOf: IntentRequest -> Intent,
    mounted: bool)

  /** `attachTrxMetadata`: every transaction gains the description and type;
      nothing else changes, and order and length are kept. */
  function AttachTrxMetadata(txs: seq<Tx>, description: Description, txType: string): (r: seq<Tx>)
    ensures |r| == |txs|
    ensures forall i :: 0 <= i < |r| ==>
      r[i] == txs[i].(description := Some(description), txType := Some(txType))
  {
    if txs == [] then []
    else
      var tx := txs[0].(description := Some(description), txType := Some(txType));
      [tx] + AttachTrxMetadata(txs[1..], description, txType)
  }

  /** Every transaction with its gas limit replaced, nothing else changed. */
  function WithGasLimit(txs: seq<Tx>, gasLimit: nat): (r: seq<Tx>)
    ensures |r| == |txs|
    ensures forall i :: 0 <= i < |r| ==> r[i] == txs[i].(gasLimit := Some(gasLimit))
  {
    if txs == [] then []
    else [txs[0].(gasLimit := Some(gasLimit))] + WithGasLimit(txs[1..], gasLimit)
  }

  /** `imposeGasLimit`: the intent's transactions all get `gasLimit`; the
      intent's other fields and every other transaction field are kept. */
  function ImposeGasLimit(intent: Intent, gasLimit: nat): (r: Intent)
    ensures r.otherFields == intent.otherFields
    ensures |r.transactions| == |intent.transactions|
    ensures forall i :: 0 <= i < |r.transactions| ==>
      r.transactions[i] == intent.transactions[i].(gasLimit := Some(gasLimit))
  {
    intent.(transactions := WithGasLimit(intent.transactions, gasLimit))
  }

  /** `approve`: nothing without a contract or a (truthy) app address;
      otherwise the single transaction `approve(appAddress, amount)` to the
      token contract, from the account, with the approve gas limit. */
  function Approve(account: Address, amount: nat, tokenContract: Option<TokenContract>, appAddress: Address): (r: Option<seq<Tx>>)
    ensures r.None? <==> tokenContract.None? || appAddress == []
    ensures r.Some? ==>
      && |r.value| == 1
      && r.value[0].to == tokenContract.value.address
      && r.value[0].from == account
      && r.value[0].gasLimit == Some(ApproveGasLimit)
      && r.value[0].data == Call("approve", [appAddress, Digits.NatToDecimal(amount)])
      && Digits.DecimalValue(r.value[0].data.args[1]) == amount
      && r.value[0].description.None? && r.value[0].txType.None? && r.value[0].otherFields == map[]
  {
    if tokenContract.None? || appAddress == [] then None
    else
      Some([Tx(
        to := tokenContract.value.address,
        from := account,
        data := Call("approve", [appAddress, Digits.NatToDecimal(amount)]),
        gasLimit := Some(ApproveGasLimit),
        description := None,
        txType := None,
        otherFields := map[])])
  }

  /** `getAllowance`: nothing when the connected app or the token contract is
      missing; otherwise what the contract reports for the account as owner
      and the connected app as spender. */
  function GetAllowance(env: Env, tokenContract: Option<TokenContract>, allowanceOf: (Address, Address) -> nat): (r: Option<nat>)
    ensures r.None? <==> env.connectedApp.None? || tokenContract.None?
    ensures r.Some? ==> r.value == allowanceOf(env.account, env.connectedApp.value.address)
  {
    if env.connectedApp.None? || tokenContract.None? then None
    else Some(allowanceOf(env.account, env.connectedApp.value.address))
  }

  /** The shared body of `wrap` and `unwrap`: ask the connected app for an
      intent, force the wrap gas limit, attach the description with type '',
      and call onDone only if still mounted. Without a connected app the call
      `connectedApp.intent` throws and onDone never runs. */
  function RunWrapIntent(env: Env, methodName: string, amount: string, description: Description): (r: Option<seq<Tx>>)
    ensures r.Some? <==> env.connectedApp.Some? && env.mounted
    ensures r.Some? ==> IsWrapOutput(env, methodName, amount, description, r.value)
  {
    if env.connectedApp.None? then None
    else
      var intent := ImposeGasLimit(env.intentOf(IntentRequest(methodName, [amount], env.account)), WrapGasLimit);
      var transactions := AttachTrxMetadata(intent.transactions, description, "");
      if env.mounted then Some(transactions) else None
  }

  /** The transactions the connected app returns for `method`, each with the
      wrap gas limit, the description and type ''. */
  predicate IsWrapOutput(env: Env, methodName: string, amount: string, description: Description, txs: seq<Tx>) {
    var returned := env.intentOf(IntentRequest(methodName, [amount], env.account)).transactions;
    |txs| == |returned| &&
    forall i :: 0 <= i < |txs| ==>
      txs[i] == returned[i].(gasLimit := Some(WrapGasLimit), description := Some(description), txType := Some(""))
  }

  /** `wrap`: a 'deposit' intent for [amount] acting as the account. */
  function Wrap(env: Env, amount: string): (r: Option<seq<Tx>>)
    ensures r.Some? <==> env.connectedApp.Some? && env.mounted
    ensures r.Some? ==> IsWrapOutput(env, "deposit", amount, WrapDescription, r.value)
  {
    RunWrapIntent(env, "deposit", amount, WrapDescription)
  }

  /** `unwrap`: a 'withdraw' intent for [amount] acting as the account. */
  function Unwrap(env: Env, amount: string): (r: Option<seq<Tx>>)
    ensures r.Some? <==> env.connectedApp.Some? && env.mounted
    ensures r.Some? ==> IsWrapOutput(env, "withdraw", amount, UnwrapDescription, r.value)
  {
    RunWrapIntent(env, "withdraw", amount, UnwrapDescription)
  }

  /** `approveTokenAmount`: nothing without a contract or a connected app;
      otherwise the approve transaction decorated with the APPROVE_TOKEN
      description for the token's symbol and type ''. When the app address is
      falsy `approve` returns undefined, `attachTrxMetadata` throws on it, and
      onDone never runs. */
  function ApproveTokenAmount(env: Env, tokenContract: Option<TokenContract>, tokenSymbol: string, depositAmount: nat): (r: Option<seq<Tx>>)
    ensures r.Some? <==>
      tokenContract.Some? && env.connectedApp.Some? && env.connectedApp.value.address != [] && env.mounted
    ensures r.Some? ==> r.value == [Tx(
      to := tokenContract.value.address,
      from := env.account,
      data := Call("approve", [env.connectedApp.value.address, Digits.NatToDecimal(depositAmount)]),
      gasLimit := Some(ApproveGasLimit),
      description := Some(ApproveTokenDescription(tokenSymbol)),
      txType := Some(""),
      otherFields := map[])]
  {
    if tokenContract.None? || env.connectedApp.None? then None
    else
      var trxs := Approve(env.account, depositAmount, tokenContract, env.connectedApp.value.address);
      if trxs.None? then None
      else
        var transactions := AttachTrxMetadata(trxs.value, ApproveTokenDescription(tokenSymbol), "");
        if env.mounted then Some(transactions) else None
  }

  // ---------------- properties ----------------

  /** Liveness gate: once the context is torn down no action calls onDone,
      however far the flow got. */
  lemma TornDownContextNeverFires(env: Env, amount: string, tokenContract: Option<TokenContract>, tokenSymbol: string, depositAmount: nat)
    requires !env.mounted
    ensures Wrap(env, amount).None?
    ensures Unwrap(env, amount).None?
    ensures ApproveTokenAmount(env, tokenContract, tokenSymbol, depositAmount).None?
  {
  }

  /** Missing collaborators produce nothing: no allowance, and no onDone. */
  lemma MissingCollaboratorsProduceNothing(env: Env, tokenContract: Option<TokenContract>, tokenSymbol: string, depositAmount: nat, allowanceOf: (Address, Address) -> nat)
    requires tokenContract.None? || env.connectedApp.None?
    ensures GetAllowance(env, tokenContract, allowanceOf).None?
    ensures ApproveTokenAmount(env, tokenContract, tokenSymbol, depositAmount).None?
  {
  }

  /** Every transaction a wrap or unwrap hands over carries the wrap gas limit
      of 1,000,000 and type ''. */
  lemma WrapForcesGasLimit(env: Env, amount: string)
    ensures var r := Wrap(env, amount);
      r.Some? ==> forall i :: 0 <= i < |r.value| ==>
        r.value[i].gasLimit == Some(1000000) && r.value[i].txType == Some("")
    ensures var r := Unwrap(env, amount);
      r.Some? ==> forall i :: 0 <= i < |r.value| ==>
        r.value[i].gasLimit == Some(1000000) && r.value[i].txType == Some("")
  {
  }

  /** Imposing a gas limit twice is the same as imposing the second one. */
  lemma ImposeGasLimitOverrides(intent: Intent, g1: nat, g2: nat)
    ensures ImposeGasLimit(ImposeGasLimit(intent, g1), g2) == ImposeGasLimit(intent, g2)
  {
    var a := ImposeGasLimit(ImposeGasLimit(intent, g1), g2);
    var b := ImposeGasLimit(intent, g2);
    assert a.transactions == b.transactions;
  }

  /** Decorating and imposing a gas limit touch different fields, so their
      order does not matter. */
  lemma MetadataAndGasCommute(txs: seq<Tx>, description: Description, txType: string, g: nat)
    ensures AttachTrxMetadata(WithGasLimit(txs, g), description, txType)
         == WithGasLimit(AttachTrxMetadata(txs, description, txType), g)
  {
    var a := AttachTrxMetadata(WithGasLimit(txs, g), description, txType);
    var b := WithGasLimit(AttachTrxMetadata(txs, description, txType), g);
    assert |a| == |b|;
    forall i | 0 <= i < |a| ensures a[i] == b[i] {
    }
  }

  /** The two hooks. */
  datatype Variant = AppsTokenWrapper | StandaloneTokenWrapper

  datatype ActionName = GetAllowanceAction | ApproveTokenAmountAction | WrapAction | UnwrapAction

  /** The actions each hook exposes under `tokenWrapperActions`: both expose
      getAllowance, approveTokenAmount and wrap, and only the apps hook also
      exposes unwrap. */
  function ExposedActions(v: Variant): (r: set<ActionName>)
    ensures forall a: ActionName :: a in r <==> (a != UnwrapAction || v == AppsTokenWrapper)
    ensures |r| == if v == AppsTokenWrapper then 4 else 3
  {
    match v
    case AppsTokenWrapper =>
      var r := {GetAllowanceAction, ApproveTokenAmountAction, WrapAction, UnwrapAction};
      EveryAction(r);
      r
    case StandaloneTokenWrapper =>
      var r := {GetAllowanceAction, ApproveTokenAmountAction, WrapAction};
      EveryAction(r);
      r
  }

  lemma EveryAction(r: set<ActionName>)
    requires {GetAllowanceAction, ApproveTokenAmountAction, WrapAction} <= r
    ensures forall a: ActionName :: a != UnwrapAction ==> a in r
  {
    forall a: ActionName | a != UnwrapAction ensures a in r {
      if a.GetAllowanceAction? || a.ApproveTokenAmountAction? || a.WrapAction? {
        assert a in {GetAllowanceAction, ApproveTokenAmountAction, WrapAction};
      }
    }
  }
}

=== FILE: addresses.dfy ===
/** Ethereum addresses as the front end handles them: hex text, compared as
    strings, never decoded. */
module Addresses {

  type Address = string
}

=== FILE: digits.dfy ===
/** Digit strings: the zero trimming and zero padding that the decimal
    converter is built from, and the numeric value a digit string denotes.
    The converter itself never looks at values; the value functions here only
    serve to state what its round trips preserve.
 */
module Digits {

  predicate IsDigit(c: char) {
    '0' <= c <= '9'
  }

  predicate IsDigits(s: string) {
    forall i :: 0 <= i < |s| ==> IsDigit(s[i])
  }

  predicate AllZeros(s: string) {
    forall i :: 0 <= i < |s| ==> s[i] == '0'
  }

  predicate NoLeadingZero(s: string) {
    s == [] || s[0] != '0'
  }

  predicate NoTrailingZero(s: string) {
    s == [] || s[|s| - 1] != '0'
  }

  /** A digit string holds no '.'. */
  lemma DigitsHaveNoDot(s: string)
    requires IsDigits(s)
    ensures '.' !in s
  {
    forall i | 0 <= i < |s| ensures s[i] != '.' {
      assert IsDigit(s[i]);
    }
  }

  function Zeros(n: nat): string {
    seq(n, _ => '0')
  }

  // ---------------- trimming: leading and trailing zero runs ----------------

  /** Removes every leading '0'. */
  function TrimLeadingZeros(s: string): (r: string)
    ensures |r| <= |s|
    ensures s == Zeros(|s| - |r|) + r
    ensures NoLeadingZero(r)
  {
    if s != [] && s[0] == '0' then
      var r := TrimLeadingZeros(s[1..]);
      assert s == "0" + s[1..];
      assert Zeros(|s| - |r|) == "0" + Zeros(|s[1..]| - |r|);
      r
    else
      assert Zeros(0) == [];
      s
  }

  /** Removes every trailing '0'. */
  function TrimTrailingZeros(s: string): (r: string)
    ensures |r| <= |s|
    ensures s == r + Zeros(|s| - |r|)
    ensures NoTrailingZero(r)
  {
    if s != [] && s[|s| - 1] == '0' then
      var r := TrimTrailingZeros(s[..|s| - 1]);
      assert s == s[..|s| - 1] + "0";
      assert Zeros(|s| - |r|) == Zeros(|s[..|s| - 1]| - |r|) + "0";
      r
    else
      assert Zeros(0) == [];
      s
  }

  lemma {:induction false} TrimLeadingZerosOfPadded(k: nat, s: string)
    ensures TrimLeadingZeros(Zeros(k) + s) == TrimLeadingZeros(s)
  {
    if k > 0 {
      assert Zeros(k) + s == "0" + (Zeros(k - 1) + s);
      TrimLeadingZerosOfPadded(k - 1, s);
    } else {
      assert Zeros(k) + s == s;
    }
  }

  lemma {:induction false} TrimTrailingZerosOfPadded(s: string, k: nat)
    ensures TrimTrailingZeros(s + Zeros(k)) == TrimTrailingZeros(s)
  {
    if k > 0 {
      assert s + Zeros(k) == (s + Zeros(k - 1)) + "0";
      TrimTrailingZerosOfPadded(s, k - 1);
    } else {
      assert s + Zeros(k) == s;
    }
  }

  lemma TrimLeadingZerosIdentity(s: string)
    requires NoLeadingZero(s)
    ensures TrimLeadingZeros(s) == s
  {
  }

  lemma TrimTrailingZerosIdentity(s: string)
    requires NoTrailingZero(s)
    ensures TrimTrailingZeros(s) == s
  {
  }

  /** Trimming zeros from a string that holds some other character leaves something. */
  lemma TrimLeadingZerosNonEmpty(s: string)
    requires exists i :: 0 <= i < |s| && s[i] != '0'
    ensures TrimLeadingZeros(s) != []
  {
  }

  lemma TrimTrailingZerosNonEmpty(s: string)
    requires exists i :: 0 <= i < |s| && s[i] != '0'
    ensures TrimTrailingZeros(s) != []
  {
  }

  /* ---------------- padding (String.prototype.padStart / padEnd with '0') ---------------- */

  /** `s.padStart(n, '0')`: left-pads with '0' up to length n; longer strings are unchanged. */
  function PadStartZeros(s: string, n: nat): (r: string)
    ensures |r| == if |s| < n then n else |s|
    ensures r == Zeros(|r| - |s|) + s
  {
    if |s| < n then Zeros(n - |s|) + s
    else
      assert Zeros(0) + s == s;
      s
  }

  /** `s.padEnd(n, '0')`: right-pads with '0' up to length n; longer strings are unchanged. */
  function PadEndZeros(s: string, n: nat): (r: string)
    ensures |r| == if |s| < n then n else |s|
    ensures r == s + Zeros(|r| - |s|)
  {
    if |s| < n then s + Zeros(n - |s|)
    else
      assert s + Zeros(0) == s;
      s
  }

  /* ---------------- values ---------------- */

  function DigitValue(c: char): nat
    requires IsDigit(c)
  {
    (c as int - '0' as int) as nat
  }

  function DigitChar(n: nat): (c: char)
    requires n < 10
    ensures IsDigit(c) && DigitValue(c) == n
  {
    ('0' as int + n) as char
  }

  /** The number a digit string denotes in base 10; the empty string denotes 0. */
  function DecimalValue(s: string): nat
    requires IsDigits(s)
  {
    if s == [] then 0 else 10 * DecimalValue(s[..|s| - 1]) + DigitValue(s[|s| - 1])
  }

  /** `n.toString(10)`: the base-10 digits of n, without leading zeros. */
  function NatToDecimal(n: nat): (r: string)
    ensures r != [] && IsDigits(r)
    ensures NoLeadingZero(r) || r == "0"
    ensures DecimalValue(r) == n
  {
    if n < 10 then
      [DigitChar(n)]
    else
      var r := NatToDecimal(n / 10) + [DigitChar(n % 10)];
      assert r[..|r| - 1] == NatToDecimal(n / 10);
      r
  }

  function Pow10(d: nat): (r: nat)
    ensures r >= 1
  {
    if d == 0 then 1 else 10 * Pow10(d - 1)
  }

  /** 10^d is written as a '1' followed by d zeros. */
  lemma {:induction false} NatToDecimalPow10(d: nat)
    ensures NatToDecimal(Pow10(d)) == "1" + Zeros(d)
  {
    if d > 0 {
      NatToDecimalPow10(d - 1);
      var p := Pow10(d - 1);
      assert Pow10(d) / 10 == p && Pow10(d) % 10 == 0 by {
        assert Pow10(d) == 10 * p;
      }
      assert NatToDecimal(Pow10(d)) == NatToDecimal(p) + [DigitChar(0)];
      assert "1" + Zeros(d) == ("1" + Zeros(d - 1)) + "0";
    }
  }

  /** Leading zeros do not change the value of a digit string. */
  lemma {:induction false} DecimalValueOfPadded(k: nat, s: string)
    requires IsDigits(s)
    ensures IsDigits(Zeros(k) + s)
    ensures DecimalValue(Zeros(k) + s) == DecimalValue(s)
    decreases |s| + k
  {
    var t := Zeros(k) + s;
    assert IsDigits(t) by {
      forall i | 0 <= i < |t| ensures IsDigit(t[i]) {
        if i < k { assert t[i] == Zeros(k)[i]; } else { assert t[i] == s[i - k]; }
      }
    }
    if s == [] {
      if k > 0 {
        assert t[..|t| - 1] == Zeros(k - 1) + s;
        DecimalValueOfPadded(k - 1, s);
      }
    } else {
      assert t[..|t| - 1] == Zeros(k) + s[..|s| - 1];
      DecimalValueOfPadded(k, s[..|s| - 1]);
    }
  }

  lemma DecimalValueOfTrimmed(s: string)
    requires IsDigits(s)
    ensures IsDigits(TrimLeadingZeros(s))
    ensures DecimalValue(TrimLeadingZeros(s)) == DecimalValue(s)
  {
    var r := TrimLeadingZeros(s);
    assert IsDigits(r) by {
      forall i | 0 <= i < |r| ensures IsDigit(r[i]) {
        assert r[i] == s[|s| - |r| + i];
      }
    }
    DecimalValueOfPadded(|s| - |r|, r);
  }
}

=== FILE: math_utils.dfy ===
/** The decimal-string fixed-point converter of src/utils/math-utils.js.

    `ToDecimals` turns a human decimal amount ("1.5") into a token's integer
    amount at a given number of decimals ("1500000000000000000" at 18), and
    `FromDecimals` goes the other way. Both work purely by slicing and padding
    characters; nothing is ever parsed into a number. The input is any string
    and the converter does not check that it holds digits. Lengths count
    characters of `string`, that is code points, where JavaScript counts
    UTF-16 code units; the two agree on every string without characters
    outside the Basic Multilingual Plane.
 */
module MathUtils {
  import opened Digits

  /** The two halves `splitDecimalNumber` returns. */
  datatype DecimalParts = DecimalParts(whole: string, fraction: string)

  /** `num.split('.')[0]`: the text before the first '.', or all of `s`. */
  function FirstPiece(s: string): (r: string)
    ensures '.' !in r
  {
    if s == [] || s[0] == '.' then [] else [s[0]] + FirstPiece(s[1..])
  }

  /** The text after the first '.', or "" when there is none. */
  function AfterFirstDot(s: string): (r: string)
    ensures '.' in s ==> s == FirstPiece(s) + "." + r
    ensures '.' !in s ==> r == []
  {
    if s == [] then []
    else if s[0] == '.' then s[1..]
    else
      var r := AfterFirstDot(s[1..]);
      assert '.' in s ==> '.' in s[1..] by {
        if '.' in s {
          var i :| 0 <= i < |s| && s[i] == '.';
          assert s[1..][i - 1] == '.';
        }
      }
      r
  }

  /** `splitDecimalNumber`: the whole part loses its leading zeros, the fraction
      (the text between the first and any second '.') loses its trailing zeros,
      and an absent side is "". */
  function SplitDecimalNumber(num: string): (p: DecimalParts)
    ensures NoLeadingZero(p.whole) && NoTrailingZero(p.fraction)
    ensures '.' !in p.whole && '.' !in p.fraction
  {
    var first := FirstPiece(num);
    var second := FirstPiece(AfterFirstDot(num));
    TrimmedPieceHasNoDot(first, second);
    DecimalParts(TrimLeadingZeros(first), TrimTrailingZeros(second))
  }

  /** `splitDecimalNumber` only drops zeros: the text before the first '.' is
      the whole part behind a run of '0's, and the text between the first and
      any second '.' is the fraction followed by a run of '0's. */
  lemma SplitDropsOnlyZeros(num: string)
    ensures var p := SplitDecimalNumber(num);
      var first := FirstPiece(num);
      |p.whole| <= |first| && first == Zeros(|first| - |p.whole|) + p.whole
    ensures var p := SplitDecimalNumber(num);
      var second := FirstPiece(AfterFirstDot(num));
      |p.fraction| <= |second| && second == p.fraction + Zeros(|second| - |p.fraction|)
  {
    WholeDropsLeadingZeros(num);
    FractionDropsTrailingZeros(num);
  }

  lemma WholeDropsLeadingZeros(num: string)
    ensures var first := FirstPiece(num);
      first == Zeros(|first| - |SplitDecimalNumber(num).whole|) + SplitDecimalNumber(num).whole
  {
    SplitOfPieces(num, FirstPiece(num), FirstPiece(AfterFirstDot(num)));
    LeadingZerosDropped(FirstPiece(num), SplitDecimalNumber(num).whole);
  }

  lemma FractionDropsTrailingZeros(num: string)
    ensures var second := FirstPiece(AfterFirstDot(num));
      second == SplitDecimalNumber(num).fraction + Zeros(|second| - |SplitDecimalNumber(num).fraction|)
  {
    SplitOfPieces(num, FirstPiece(num), FirstPiece(AfterFirstDot(num)));
    TrailingZerosDropped(FirstPiece(AfterFirstDot(num)), SplitDecimalNumber(num).fraction);
  }

  lemma LeadingZerosDropped(s: string, r: string)
    requires r == TrimLeadingZeros(s)
    ensures |r| <= |s| && s == Zeros(|s| - |r|) + r
  {
  }

  lemma TrailingZerosDropped(s: string, r: string)
    requires r == TrimTrailingZeros(s)
    ensures |r| <= |s| && s == r + Zeros(|s| - |r|)
  {
  }

  lemma TrimmedPieceHasNoDot(first: string, second: string)
    requires '.' !in first && '.' !in second
    ensures '.' !in TrimLeadingZeros(first) && '.' !in TrimTrailingZeros(second)
  {
    var whole := TrimLeadingZeros(first);
    var fraction := TrimTrailingZeros(second);
    NoDotInTail(Zeros(|first| - |whole|), whole);
    NoDotInHead(fraction, Zeros(|second| - |fraction|));
  }

  lemma NoDotInTail(z: string, t: string)
    requires '.' !in z + t
    ensures '.' !in t
  {
    forall i | 0 <= i < |t| ensures t[i] != '.' {
      assert t[i] == (z + t)[|z| + i];
    }
  }

  lemma NoDotInHead(h: string, z: string)
    requires '.' !in h + z
    ensures '.' !in h
  {
    forall i | 0 <= i < |h| ensures h[i] != '.' {
      assert h[i] == (h + z)[i];
    }
  }

  /** `fromDecimals(num, decimals, { truncate })`: reads the integer amount
      `num` at scale `decimals` and writes it as a decimal. With `truncate`
      off, a fraction already present in `num` is appended verbatim after the
      untrimmed scaled digits. */
  function FromDecimals(num: string, decimals: nat, truncate: bool): string {
    var p := SplitDecimalNumber(num);
    ScaleDown(p.whole, p.fraction, decimals, truncate)
  }

  /** The part of `fromDecimals` after the split. */
  function ScaleDown(whole: string, dec: string, decimals: nat, truncate: bool): string {
    if whole == [] && dec == [] then "0"
    else
      var paddedWhole := PadStartZeros(whole, decimals + 1);
      var decimalIndex := |paddedWhole| - decimals;
      var wholeWithoutBase := paddedWhole[..decimalIndex];
      var decWithoutBase := paddedWhole[decimalIndex..];
      if !truncate && dec != [] then
        wholeWithoutBase + "." + decWithoutBase + dec
      else
        var decWithoutBaseTrimmed := TrimTrailingZeros(decWithoutBase);
        if decWithoutBaseTrimmed != [] then wholeWithoutBase + "." + decWithoutBaseTrimmed
        else wholeWithoutBase
  }

  /** `toDecimals(num, decimals, { truncate })`: scales the decimal `num` up
      by `decimals` digits. Surplus fraction digits are dropped, or, with
      `truncate` off, kept after a '.' so that the caller can tell the amount
      is not representable. */
  function ToDecimals(num: string, decimals: nat, truncate: bool): string {
    var p := SplitDecimalNumber(num);
    ScaleUp(p.whole, p.fraction, decimals, truncate)
  }

  /** The part of `toDecimals` after the split. */
  function ScaleUp(whole: string, dec: string, decimals: nat, truncate: bool): string {
    if whole == [] && (dec == [] || decimals == 0) then "0"
    else
      var wholeLengthWithBase := |whole| + decimals;
      var withoutDecimals := PadEndZeros(whole + dec, wholeLengthWithBase);
      var wholeWithBase := withoutDecimals[..wholeLengthWithBase];
      if !truncate && |wholeWithBase| < |withoutDecimals| then
        wholeWithBase + "." + withoutDecimals[wholeLengthWithBase..]
      else
        wholeWithBase
  }

  // ---------------- reference reading of the scaled digits ----------------

  /** The integer digits of the digit string `w` read at scale `d`: all but its
      last `d` characters, or "0" when nothing is left. */
  function IntegerPart(w: string, d: nat): string {
    if |w| > d then w[..|w| - d] else "0"
  }

  /** The `d` fractional digits of `w` read at scale `d`: its last `d`
      characters, filled with zeros on the left when `w` is shorter. */
  function ScaledFraction(w: string, d: nat): (f: string)
    ensures |f| == d
  {
    if |w| >= d then w[|w| - d..] else Zeros(d - |w|) + w
  }

  /** True when `splitDecimalNumber` leaves nothing on either side. */
  predicate IsEmptyAmount(p: DecimalParts) {
    p.whole == [] && p.fraction == []
  }

  /** The case in which `toDecimals` answers "0" without scaling. */
  predicate ToDecimalsGivesZero(p: DecimalParts, decimals: nat) {
    p.whole == [] && (p.fraction == [] || decimals == 0)
  }

  lemma PaddedWholeSplit(w: string, d: nat)
    ensures var padded := PadStartZeros(w, d + 1);
      |padded| >= d + 1 &&
      padded[..|padded| - d] == IntegerPart(w, d) &&
      padded[|padded| - d..] == ScaledFraction(w, d)
  {
    var padded := PadStartZeros(w, d + 1);
    if |w| < d + 1 {
      assert padded == Zeros(d + 1 - |w|) + w;
      assert padded[..|padded| - d] == "0";
      assert padded[|padded| - d..] == Zeros(d - |w|) + w;
    }
  }

  lemma IntegerPartHasNoDot(w: string, d: nat)
    requires '.' !in w
    ensures '.' !in IntegerPart(w, d)
  {
    if |w| > d {
      NoDotInHead(w[..|w| - d], w[|w| - d..]);
    }
  }

  // ---------------- properties of splitDecimalNumber ----------------

  lemma {:induction false} FirstPieceOfDotted(a: string, x: string)
    requires '.' !in a
    ensures FirstPiece(a + "." + x) == a
    ensures AfterFirstDot(a + "." + x) == x
  {
    var s := a + "." + x;
    if a != [] {
      assert s[0] == a[0] && s[1..] == a[1..] + "." + x;
      FirstPieceOfDotted(a[1..], x);
    }
  }

  lemma FirstPieceOfUndotted(a: string)
    requires '.' !in a
    ensures FirstPiece(a) == a
    ensures AfterFirstDot(a) == []
  {
  }

  /** Only the text before a second '.' reaches the fraction; anything after it is ignored. */
  lemma SplitIgnoresSecondDot(a: string, b: string, c: string)
    requires '.' !in a && '.' !in b
    ensures SplitDecimalNumber(a + "." + b + "." + c) == SplitDecimalNumber(a + "." + b)
  {
    var x := a + "." + b + "." + c;
    var y := a + "." + b;
    assert x == a + "." + (b + "." + c);
    FirstPieceOfDotted(a, b + "." + c);
    FirstPieceOfDotted(b, c);
    SplitOfPieces(x, a, b);
    FirstPieceOfDotted(a, b);
    FirstPieceOfUndotted(b);
    SplitOfPieces(y, a, b);
  }

  /** The split is determined by the first two pieces of `split('.')`. */
  lemma SplitOfPieces(num: string, first: string, second: string)
    requires FirstPiece(num) == first && FirstPiece(AfterFirstDot(num)) == second
    ensures SplitDecimalNumber(num) == DecimalParts(TrimLeadingZeros(first), TrimTrailingZeros(second))
  {
  }

  /** Splitting the canonical text of a decimal gives back its two parts. */
  lemma SplitCanonical(w: string, f: string)
    requires CanonicalParts(w, f)
    ensures SplitDecimalNumber(Canonical(w, f)) == DecimalParts(w, f)
  {
    var c := Canonical(w, f);
    var head := if w == [] then "0" else w;
    CanonicalPieces(w, f);
    SplitOfPieces(c, head, f);
    CanonicalHeadTrims(w);
    TrimTrailingZerosIdentity(f);
  }

  lemma CanonicalPieces(w: string, f: string)
    requires IsDigits(w) && IsDigits(f)
    ensures var c := Canonical(w, f);
      FirstPiece(c) == (if w == [] then "0" else w) && FirstPiece(AfterFirstDot(c)) == f
  {
    var c := Canonical(w, f);
    var head := if w == [] then "0" else w;
    assert '.' !in head by { DigitsHaveNoDot(w); }
    DigitsHaveNoDot(f);
    if f == [] {
      assert c == head;
      FirstPieceOfUndotted(head);
    } else {
      assert c == head + "." + f;
      FirstPieceOfDotted(head, f);
      FirstPieceOfUndotted(f);
    }
  }

  lemma CanonicalHeadTrims(w: string)
    requires NoLeadingZero(w)
    ensures TrimLeadingZeros(if w == [] then "0" else w) == w
  {
    if w == [] {
      assert "0" == Zeros(1) + [];
      TrimLeadingZerosOfPadded(1, []);
    } else {
      TrimLeadingZerosIdentity(w);
    }
  }

  /** Splitting a digit string gives its zero-trimmed self and no fraction. */
  lemma SplitDigits(n: string)
    requires IsDigits(n)
    ensures SplitDecimalNumber(n) == DecimalParts(TrimLeadingZeros(n), [])
  {
    DigitsHaveNoDot(n);
    FirstPieceOfUndotted(n);
  }

  // ---------------- canonical decimals ----------------

  /** Digit strings `w` and `f` that are the canonical whole and fraction of a decimal. */
  predicate CanonicalParts(w: string, f: string) {
    IsDigits(w) && IsDigits(f) && NoLeadingZero(w) && NoTrailingZero(f)
  }

  /** The canonical text of a decimal: "0" for an empty whole part, and a '.'
      only when there is a fraction. */
  function Canonical(w: string, f: string): string {
    (if w == [] then "0" else w) + (if f == [] then [] else "." + f)
  }

  // ---------------- properties of toDecimals ----------------

  /** What `toDecimals` produces, case by case: "0" for an amount with no
      digits (or no whole digits at scale 0); otherwise the whole digits, then
      the first `decimals` fraction digits, right-filled with zeros; and, only
      with `truncate` off, a '.' and the fraction digits that did not fit. */
  lemma ToDecimalsCases(num: string, decimals: nat, truncate: bool)
    ensures var p := SplitDecimalNumber(num);
      var r := ToDecimals(num, decimals, truncate);
      && (ToDecimalsGivesZero(p, decimals) ==> r == "0")
      && (!ToDecimalsGivesZero(p, decimals) && |p.fraction| <= decimals ==>
            r == p.whole + p.fraction + Zeros(decimals - |p.fraction|))
      && (!ToDecimalsGivesZero(p, decimals) && |p.fraction| > decimals && truncate ==>
            r == p.whole + p.fraction[..decimals])
      && (!ToDecimalsGivesZero(p, decimals) && |p.fraction| > decimals && !truncate ==>
            r == p.whole + p.fraction[..decimals] + "." + p.fraction[decimals..])
  {
    var p := SplitDecimalNumber(num);
    ScaleUpCases(p.whole, p.fraction, decimals, truncate);
  }

  lemma ScaleUpCases(w: string, f: string, d: nat, truncate: bool)
    ensures var r := ScaleUp(w, f, d, truncate);
      && (w == [] && (f == [] || d == 0) ==> r == "0")
      && (!(w == [] && (f == [] || d == 0)) && |f| <= d ==> r == w + f + Zeros(d - |f|))
      && (!(w == [] && (f == [] || d == 0)) && |f| > d && truncate ==> r == w + f[..d])
      && (!(w == [] && (f == [] || d == 0)) && |f| > d && !truncate ==>
            r == w + f[..d] + "." + f[d..])
  {
    if !(w == [] && (f == [] || d == 0)) {
      var n := |w| + d;
      var s := w + f;
      var padded := PadEndZeros(s, n);
      if |f| <= d {
        ScaleUpFits(w, f, d, truncate);
      } else {
        assert padded == s;
        assert padded[..n] == w + f[..d];
        assert padded[n..] == f[d..];
      }
    }
  }

  /** A fraction no longer than the scale is padded with zeros to the scale. */
  lemma ScaleUpFits(w: string, f: string, d: nat, truncate: bool)
    requires !(w == [] && (f == [] || d == 0)) && |f| <= d
    ensures ScaleUp(w, f, d, truncate) == w + f + Zeros(d - |f|)
  {
    var padded := PadEndZeros(w + f, |w| + d);
    assert padded == w + f + Zeros(d - |f|);
    assert padded[..|w| + d] == padded;
  }

  /** With `truncate` on, and outside the "0" case, the output has exactly
      `len(whole) + decimals` characters: that prefix of whole ++ fraction,
      right-padded with '0'. It never holds a '.'. */
  lemma ToDecimalsTruncates(num: string, decimals: nat)
    ensures '.' !in ToDecimals(num, decimals, true)
    ensures var p := SplitDecimalNumber(num);
      var r := ToDecimals(num, decimals, true);
      !ToDecimalsGivesZero(p, decimals) ==>
        |r| == |p.whole| + decimals &&
        r == PadEndZeros(p.whole + p.fraction, |p.whole| + decimals)[..|p.whole| + decimals]
  {
    ToDecimalsCases(num, decimals, true);
    var p := SplitDecimalNumber(num);
    var r := ToDecimals(num, decimals, true);
    if !ToDecimalsGivesZero(p, decimals) {
      if |p.fraction| <= decimals {
        NoDotInConcat(p.whole, p.fraction, Zeros(decimals - |p.fraction|));
      } else {
        NoDotInConcat(p.whole, p.fraction[..decimals], []);
      }
    }
  }

  lemma NoDotInConcat(a: string, b: string, z: string)
    requires '.' !in a && '.' !in b && AllZeros(z)
    ensures '.' !in a + b + z
  {
    var s := a + b + z;
    forall i | 0 <= i < |s| ensures s[i] != '.' {
      if i < |a| { assert s[i] == a[i]; }
      else if i < |a| + |b| { assert s[i] == b[i - |a|]; }
      else { assert s[i] == z[i - |a| - |b|]; }
    }
  }

  /** With `truncate` off the output holds a '.' exactly when the fraction has
      more digits than `decimals`, except when the whole part is empty at scale
      0, where the answer is a bare "0". */
  lemma ToDecimalsSignalsExcess(num: string, decimals: nat)
    ensures var p := SplitDecimalNumber(num);
      '.' in ToDecimals(num, decimals, false) <==>
        |p.fraction| > decimals && !(p.whole == [] && decimals == 0)
  {
    ToDecimalsCases(num, decimals, false);
    var p := SplitDecimalNumber(num);
    var r := ToDecimals(num, decimals, false);
    if !ToDecimalsGivesZero(p, decimals) {
      if |p.fraction| <= decimals {
        NoDotInConcat(p.whole, p.fraction, Zeros(decimals - |p.fraction|));
      } else {
        assert r[|p.whole| + decimals] == '.';
      }
    }
  }

  /** With `truncate` off the output differs from the truncated one only when
      surplus fraction digits exist: it is then the truncated digits, a '.', and
      the surplus digits. */
  lemma ToDecimalsKeepsExcess(num: string, decimals: nat)
    ensures var p := SplitDecimalNumber(num);
      var kept := ToDecimals(num, decimals, false);
      var cut := ToDecimals(num, decimals, true);
      if |p.fraction| > decimals && !ToDecimalsGivesZero(p, decimals) then
        kept == cut + "." + p.fraction[decimals..]
      else
        kept == cut
  {
    ToDecimalsCases(num, decimals, false);
    ToDecimalsCases(num, decimals, true);
  }

  /** The empty string, "0" and "000.000" all become "0" at any scale. */
  lemma ToDecimalsOfZero(decimals: nat, truncate: bool)
    ensures ToDecimals("", decimals, truncate) == "0"
    ensures ToDecimals("0", decimals, truncate) == "0"
    ensures ToDecimals("000.000", decimals, truncate) == "0"
  {
    ScaleUpCases([], [], decimals, truncate);
    assert "" == Zeros(0);
    SplitOfZeros(0);
    assert "0" == Zeros(1);
    SplitOfZeros(1);
    assert "000.000" == Zeros(3) + "." + Zeros(3);
    SplitOfDottedZeros(3, 3);
  }

  /** A run of zeros has neither whole nor fraction digits. */
  lemma SplitOfZeros(k: nat)
    ensures SplitDecimalNumber(Zeros(k)) == DecimalParts([], [])
  {
    DigitsHaveNoDot(Zeros(k));
    FirstPieceOfUndotted(Zeros(k));
    FirstPieceOfUndotted([]);
    assert Zeros(k) == Zeros(k) + [];
    TrimLeadingZerosOfPadded(k, []);
    SplitOfPieces(Zeros(k), Zeros(k), []);
  }

  /** Nor do two runs of zeros around a '.'. */
  lemma SplitOfDottedZeros(k: nat, m: nat)
    ensures SplitDecimalNumber(Zeros(k) + "." + Zeros(m)) == DecimalParts([], [])
  {
    DigitsHaveNoDot(Zeros(k));
    DigitsHaveNoDot(Zeros(m));
    FirstPieceOfDotted(Zeros(k), Zeros(m));
    FirstPieceOfUndotted(Zeros(m));
    assert Zeros(k) == Zeros(k) + [];
    TrimLeadingZerosOfPadded(k, []);
    assert Zeros(m) == [] + Zeros(m);
    TrimTrailingZerosOfPadded([], m);
    SplitOfPieces(Zeros(k) + "." + Zeros(m), Zeros(k), Zeros(m));
  }

  /** A fraction with more digits than `decimals` is kept after a '.' when
      truncation is off, and dropped when it is on:
      1.23456789 at scale 6 gives 1234567.89 and 1234567. */
  lemma ToDecimalsExample()
    ensures ToDecimals("1.23456789", 6, false) == "1234567.89"
    ensures ToDecimals("1.23456789", 6, true) == "1234567"
  {
    SplitExample();
    ScaleUpExample(false);
    ScaleUpExample(true);
  }

  lemma ScaleUpExample(truncate: bool)
    ensures ScaleUp("1", "23456789", 6, truncate) == if truncate then "1234567" else "1234567.89"
  {
    var w, f := "1", "23456789";
    ScaleUpCases(w, f, 6, truncate);
    assert f[..6] == "234567" && f[6..] == "89";
  }

  lemma SplitExample()
    ensures SplitDecimalNumber("1.23456789") == DecimalParts("1", "23456789")
  {
    var w, f := "1", "23456789";
    assert "1.23456789" == w + "." + f;
    FirstPieceOfDotted(w, f);
    FirstPieceOfUndotted(f);
    TrimLeadingZerosIdentity(w);
    TrimTrailingZerosIdentity(f);
  }

  /** At scale 0, an amount with no whole digits is "0" even with truncation
      off: ".5" does not signal its surplus digit, while "1.5" does. */
  lemma ToDecimalsScaleZeroDropsFraction()
    ensures ToDecimals(".5", 0, false) == "0"
    ensures ToDecimals("1.5", 0, false) == "1.5"
  {
    assert ".5" == [] + "." + "5";
    FirstPieceOfDotted([], "5");
    FirstPieceOfUndotted("5");
    assert "1.5" == "1" + "." + "5";
    FirstPieceOfDotted("1", "5");
    ToDecimalsCases("1.5", 0, false);
  }

  // ---------------- properties of fromDecimals ----------------

  /** What `fromDecimals` produces: "0" for an amount with no digits;
      otherwise the integer part of the whole digits read at scale `decimals`,
      then either (truncate off and a fraction present) a '.', all `decimals`
      scaled digits and the input fraction, or a '.' and the scaled digits
      without trailing zeros, the '.' left out when nothing remains. */
  lemma FromDecimalsCases(num: string, decimals: nat, truncate: bool)
    ensures var p := SplitDecimalNumber(num);
      var r := FromDecimals(num, decimals, truncate);
      var ip := IntegerPart(p.whole, decimals);
      var sf := ScaledFraction(p.whole, decimals);
      && (IsEmptyAmount(p) ==> r == "0")
      && (!IsEmptyAmount(p) && !truncate && p.fraction != [] ==>
            r == ip + "." + sf + p.fraction)
      && (!IsEmptyAmount(p) && (truncate || p.fraction == []) && TrimTrailingZeros(sf) != [] ==>
            r == ip + "." + TrimTrailingZeros(sf))
      && (!IsEmptyAmount(p) && (truncate || p.fraction == []) && TrimTrailingZeros(sf) == [] ==>
            r == ip)
  {
    var p := SplitDecimalNumber(num);
    ScaleDownCases(p.whole, p.fraction, decimals, truncate);
  }

  lemma ScaleDownCases(w: string, f: string, d: nat, truncate: bool)
    ensures var r := ScaleDown(w, f, d, truncate);
      var ip := IntegerPart(w, d);
      var sf := ScaledFraction(w, d);
      && (w == [] && f == [] ==> r == "0")
      && (!(w == [] && f == []) && !truncate && f != [] ==> r == ip + "." + sf + f)
      && (!(w == [] && f == []) && (truncate || f == []) && TrimTrailingZeros(sf) != [] ==>
            r == ip + "." + TrimTrailingZeros(sf))
      && (!(w == [] && f == []) && (truncate || f == []) && TrimTrailingZeros(sf) == [] ==>
            r == ip)
  {
    PaddedWholeSplit(w, d);
  }

  /** The integer part of a `fromDecimals` result is never empty, and it is "0"
      when the whole digits fit within `decimals`. */
  lemma FromDecimalsIntegerPart(num: string, decimals: nat, truncate: bool)
    ensures FirstPiece(FromDecimals(num, decimals, truncate)) != []
    ensures |SplitDecimalNumber(num).whole| <= decimals ==>
      FirstPiece(FromDecimals(num, decimals, truncate)) == "0"
  {
    var p := SplitDecimalNumber(num);
    ScaleDownIntegerPart(p.whole, p.fraction, decimals, truncate);
  }

  lemma ScaleDownIntegerPart(w: string, f: string, d: nat, truncate: bool)
    requires '.' !in w
    ensures FirstPiece(ScaleDown(w, f, d, truncate)) != []
    ensures |w| <= d ==> FirstPiece(ScaleDown(w, f, d, truncate)) == "0"
  {
    if w == [] && f == [] {
      EmptyAmountFirstPiece(d, truncate);
    } else if !truncate && f != [] {
      UntruncatedFirstPiece(w, f, d);
    } else {
      TruncatedFirstPiece(w, f, d, truncate);
    }
  }

  lemma EmptyAmountFirstPiece(d: nat, truncate: bool)
    ensures FirstPiece(ScaleDown([], [], d, truncate)) == "0"
  {
    FirstPieceOfUndotted("0");
  }

  lemma UntruncatedFirstPiece(w: string, f: string, d: nat)
    requires '.' !in w && f != []
    ensures FirstPiece(ScaleDown(w, f, d, false)) == IntegerPart(w, d)
  {
    IntegerPartHasNoDot(w, d);
    var rest := ScaleDownUntruncated(w, f, d);
    FirstPieceOfDotted(IntegerPart(w, d), rest);
  }

  lemma TruncatedFirstPiece(w: string, f: string, d: nat, truncate: bool)
    requires '.' !in w && !(w == [] && f == []) && (truncate || f == [])
    ensures FirstPiece(ScaleDown(w, f, d, truncate)) == IntegerPart(w, d)
  {
    IntegerPartHasNoDot(w, d);
    ScaleDownTruncated(w, f, d, truncate);
    var t := TrimTrailingZeros(ScaledFraction(w, d));
    if t != [] {
      FirstPieceOfDotted(IntegerPart(w, d), t);
    } else {
      FirstPieceOfUndotted(IntegerPart(w, d));
    }
  }

  /** `fromDecimals` with `truncate` off and a fraction present, after the split. */
  lemma ScaleDownUntruncated(w: string, f: string, d: nat) returns (rest: string)
    requires f != []
    ensures rest == ScaledFraction(w, d) + f
    ensures ScaleDown(w, f, d, false) == IntegerPart(w, d) + "." + rest
  {
    PaddedWholeSplit(w, d);
    rest := ScaledFraction(w, d) + f;
  }

  /** With `truncate` on, a '.' in the result is never followed by a trailing
      '0', and there is no '.' at all when the scaled digits are all zeros. */
  lemma FromDecimalsTrimsScaledDigits(num: string, decimals: nat)
    ensures var r := FromDecimals(num, decimals, true);
      '.' in r ==> r[|r| - 1] != '0'
    ensures AllZeros(ScaledFraction(SplitDecimalNumber(num).whole, decimals)) ==>
      '.' !in FromDecimals(num, decimals, true)
  {
    var p := SplitDecimalNumber(num);
    ScaleDownTrimsScaledDigits(FromDecimals(num, decimals, true), p.whole, p.fraction, decimals);
  }

  lemma ScaleDownTrimsScaledDigits(r: string, w: string, f: string, d: nat)
    requires '.' !in w && r == ScaleDown(w, f, d, true)
    ensures '.' in r ==> r[|r| - 1] != '0'
    ensures AllZeros(ScaledFraction(w, d)) ==> '.' !in r
  {
    ScaleDownTruncated(w, f, d, true);
    IntegerPartHasNoDot(w, d);
    var ip := IntegerPart(w, d);
    var sf := ScaledFraction(w, d);
    var t := TrimTrailingZeros(sf);
    if !(w == [] && f == []) && t != [] {
      AllZerosTrimToEmpty(sf);
      DotThenTrimmed(ip, t);
    }
  }

  lemma AllZerosTrimToEmpty(s: string)
    ensures AllZeros(s) ==> TrimTrailingZeros(s) == []
  {
    if AllZeros(s) {
      assert s == [] + Zeros(|s|);
      TrimTrailingZerosOfPadded([], |s|);
    }
  }

  lemma DotThenTrimmed(ip: string, t: string)
    requires t != [] && NoTrailingZero(t)
    ensures var r := ip + "." + t;
      '.' in r && r[|r| - 1] != '0'
  {
    var r := ip + "." + t;
    assert r[|ip|] == '.';
    assert r[|r| - 1] == t[|t| - 1];
  }

  /** `fromDecimals` with `truncate` on, after the split. */
  lemma ScaleDownTruncated(w: string, f: string, d: nat, truncate: bool)
    requires truncate || f == []
    ensures ScaleDown(w, f, d, truncate) ==
      if w == [] && f == [] then "0"
      else
        var t := TrimTrailingZeros(ScaledFraction(w, d));
        if t == [] then IntegerPart(w, d) else IntegerPart(w, d) + "." + t
  {
    PaddedWholeSplit(w, d);
  }

  /** With `truncate` on, the input's own fraction is ignored: two amounts
      with the same whole digits give the same result. */
  lemma FromDecimalsIgnoresInputFraction(a: string, b: string, decimals: nat)
    requires SplitDecimalNumber(a).whole == SplitDecimalNumber(b).whole
    ensures FromDecimals(a, decimals, true) == FromDecimals(b, decimals, true)
  {
    var w := SplitDecimalNumber(a).whole;
    ScaleDownTruncated(w, SplitDecimalNumber(a).fraction, decimals, true);
    ScaleDownTruncated(w, SplitDecimalNumber(b).fraction, decimals, true);
    if w == [] {
      assert ScaledFraction(w, decimals) == [] + Zeros(decimals);
      TrimTrailingZerosOfPadded([], decimals);
    }
  }

  /** With `truncate` off and a fraction in the input, all `decimals` scaled
      digits are kept untrimmed and the input fraction follows them. */
  lemma FromDecimalsKeepsInputFraction(num: string, decimals: nat)
    requires SplitDecimalNumber(num).fraction != []
    ensures var p := SplitDecimalNumber(num);
      FromDecimals(num, decimals, false) ==
        IntegerPart(p.whole, decimals) + "." + ScaledFraction(p.whole, decimals) + p.fraction
  {
    FromDecimalsCases(num, decimals, false);
  }

  // ---------------- round trips ----------------

  /** A canonical decimal with at most `d` fraction digits survives scaling up
      and back down unchanged. */
  lemma RoundTripToFrom(w: string, f: string, d: nat, truncate: bool)
    requires CanonicalParts(w, f) && |f| <= d
    ensures FromDecimals(ToDecimals(Canonical(w, f), d, truncate), d, true) == Canonical(w, f)
  {
    SplitCanonical(w, f);
    if w == [] && f == [] {
      ScaleUpCases(w, f, d, truncate);
      FirstPieceOfUndotted("0");
    } else {
      var n := ScaledDigits(w, f, d, truncate);
      SplitDigits(n);
      ScaleDownOfScaled(w, f, d);
    }
  }

  /** The bound on the fraction matters: "1.234" is canonical, but at scale 2
      with truncation its third fraction digit is lost on the way up. */
  lemma RoundTripDropsSurplus()
    ensures CanonicalParts("1", "234") && Canonical("1", "234") == "1.234"
    ensures FromDecimals(ToDecimals("1.234", 2, true), 2, true) == "1.23"
  {
    SurplusIsCanonical();
    SurplusScaledUp();
    SurplusScaledDown();
  }

  lemma SurplusIsCanonical()
    ensures CanonicalParts("1", "234") && Canonical("1", "234") == "1.234"
  {
  }

  lemma SurplusScaledUp()
    ensures ToDecimals("1.234", 2, true) == "123"
  {
    var w, f := "1", "234";
    assert "1.234" == w + "." + f;
    FirstPieceOfDotted(w, f);
    FirstPieceOfUndotted(f);
    TrimLeadingZerosIdentity(w);
    TrimTrailingZerosIdentity(f);
    ScaleUpCases(w, f, 2, true);
    assert f[..2] == "23";
  }

  lemma SurplusScaledDown()
    ensures FromDecimals("123", 2, true) == "1.23"
  {
    SurplusSplit();
    SurplusScaleDown();
  }

  lemma SurplusSplit()
    ensures SplitDecimalNumber("123") == DecimalParts("123", [])
  {
    var n := "123";
    assert IsDigits(n);
    SplitDigits(n);
    TrimLeadingZerosIdentity(n);
  }

  lemma SurplusScaleDown()
    ensures ScaleDown("123", [], 2, true) == "1.23"
  {
    var n := "123";
    assert ScaledFraction(n, 2) == "23";
    TrimTrailingZerosIdentity("23");
    assert IntegerPart(n, 2) == "1";
    ScaleDownOfDigits(n, "1", "23", 2);
  }

  /** Outside the "0" case, a canonical decimal scales up to its whole digits,
      its fraction digits and zeros. */
  lemma ScaledDigits(w: string, f: string, d: nat, truncate: bool) returns (n: string)
    requires CanonicalParts(w, f) && |f| <= d && !(w == [] && f == [])
    ensures n == ScaleUp(w, f, d, truncate) == w + f + Zeros(d - |f|)
    ensures IsDigits(n)
  {
    ScaleUpCases(w, f, d, truncate);
    var z := Zeros(d - |f|);
    n := w + f + z;
    forall i | 0 <= i < |n| ensures IsDigit(n[i]) {
      if i < |w| { assert n[i] == w[i]; }
      else if i < |w| + |f| { assert n[i] == f[i - |w|]; }
      else { assert n[i] == z[i - |w| - |f|]; }
    }
  }

  lemma ScaleDownOfScaled(w: string, f: string, d: nat)
    requires CanonicalParts(w, f) && |f| <= d && !(w == [] && f == [])
    ensures ScaleDown(TrimLeadingZeros(w + f + Zeros(d - |f|)), [], d, true) == Canonical(w, f)
  {
    var v := TrimLeadingZeros(w + f + Zeros(d - |f|));
    if w != [] {
      ScaledPartsWithWhole(w, f, d);
    } else {
      assert w + f == f;
      ScaledPartsWithoutWhole(f, d);
    }
    TrimTrailingZerosOfPadded(f, d - |f|);
    TrimTrailingZerosIdentity(f);
    var ip := if w == [] then "0" else w;
    ScaleDownOfDigits(v, ip, f, d);
    CanonicalAsParts(w, f);
  }

  lemma CanonicalAsParts(w: string, f: string)
    ensures var ip := if w == [] then "0" else w;
      Canonical(w, f) == if f == [] then ip else ip + "." + f
  {
  }

  /** Digits read at scale `d` with truncation: the integer part, then a '.'
      and the trimmed scaled digits when any remain. */
  lemma ScaleDownOfDigits(v: string, ip: string, t: string, d: nat)
    requires v != [] && IntegerPart(v, d) == ip && TrimTrailingZeros(ScaledFraction(v, d)) == t
    ensures ScaleDown(v, [], d, true) == if t == [] then ip else ip + "." + t
  {
    ScaleDownTruncated(v, [], d, true);
  }

  lemma ScaledPartsWithWhole(w: string, f: string, d: nat)
    requires NoLeadingZero(w) && w != [] && |f| <= d
    ensures var v := TrimLeadingZeros(w + f + Zeros(d - |f|));
      v != [] && IntegerPart(v, d) == w && ScaledFraction(v, d) == f + Zeros(d - |f|)
  {
    var n := w + f + Zeros(d - |f|);
    assert n[0] == w[0];
    TrimLeadingZerosIdentity(n);
  }

  lemma ScaledPartsWithoutWhole(f: string, d: nat)
    requires NoTrailingZero(f) && f != [] && |f| <= d
    ensures var v := TrimLeadingZeros(f + Zeros(d - |f|));
      v != [] && IntegerPart(v, d) == "0" && ScaledFraction(v, d) == f + Zeros(d - |f|)
  {
    var n := f + Zeros(d - |f|);
    assert TrimLeadingZeros(n) != [] by {
      assert n[|f| - 1] == f[|f| - 1];
      TrimLeadingZerosNonEmpty(n);
    }
    ScaledPartsOfFraction(n, d);
  }

  /** Exactly `d` digits read at scale `d`: no integer digits, and the
      digits themselves as the scaled fraction. */
  lemma ScaledPartsOfFraction(n: string, d: nat)
    requires |n| == d
    ensures var v := TrimLeadingZeros(n);
      IntegerPart(v, d) == "0" && ScaledFraction(v, d) == n
  {
    var v := TrimLeadingZeros(n);
    if |v| == d {
      assert v == n;
    }
  }

  /** An integer amount read at scale `d` and scaled back up gives the same
      digits up to leading zeros, and no '.'. */
  lemma RoundTripFromTo(n: string, d: nat, truncate: bool)
    requires IsDigits(n)
    ensures var r := ToDecimals(FromDecimals(n, d, true), d, truncate);
      IsDigits(r) && TrimLeadingZeros(r) == TrimLeadingZeros(n)
  {
    SplitDigits(n);
    DecimalValueOfTrimmed(n);
    var v := TrimLeadingZeros(n);
    assert FromDecimals(n, d, true) == ScaleDown(v, [], d, true);
    if v == [] {
      RoundTripOfZero(d, truncate);
    } else {
      RoundTripOfDigits(v, d, truncate);
    }
  }

  lemma RoundTripOfZero(d: nat, truncate: bool)
    ensures var r := ToDecimals(ScaleDown([], [], d, true), d, truncate);
      IsDigits(r) && TrimLeadingZeros(r) == []
  {
    assert ScaleDown([], [], d, true) == Zeros(1);
    SplitOfZeros(1);
    assert ScaleUp([], [], d, truncate) == "0";
    assert "0" == Zeros(1) + [];
    TrimLeadingZerosOfPadded(1, []);
  }

  lemma RoundTripOfDigits(v: string, d: nat, truncate: bool)
    requires IsDigits(v) && v != [] && NoLeadingZero(v)
    ensures var r := ToDecimals(ScaleDown(v, [], d, true), d, truncate);
      IsDigits(r) && TrimLeadingZeros(r) == v
  {
    var ip, t := SplitOfScaledDown(v, d);
    ScaleUpOfScaledDown(v, d, truncate);
  }

  /** Reading digits `v` at scale `d` gives text that splits into the
      integer digits (without leading zeros) and the trimmed scaled digits. */
  lemma SplitOfScaledDown(v: string, d: nat) returns (ip: string, t: string)
    requires IsDigits(v) && v != [] && NoLeadingZero(v)
    ensures ip == IntegerPart(v, d) && t == TrimTrailingZeros(ScaledFraction(v, d))
    ensures SplitDecimalNumber(ScaleDown(v, [], d, true)) == DecimalParts(TrimLeadingZeros(ip), t)
  {
    ip := IntegerPart(v, d);
    var sf := ScaledFraction(v, d);
    t := TrimTrailingZeros(sf);
    assert IsDigits(ip) by {
      forall i | 0 <= i < |ip| ensures IsDigit(ip[i]) { assert |v| > d ==> ip[i] == v[i]; }
    }
    assert IsDigits(sf) by {
      forall i | 0 <= i < |sf| ensures IsDigit(sf[i]) {
        if |v| >= d { assert sf[i] == v[|v| - d + i]; }
        else if i >= d - |v| { assert sf[i] == v[i - (d - |v|)]; }
      }
    }
    forall i | 0 <= i < |t| ensures IsDigit(t[i]) { assert t[i] == sf[i]; }
    DigitsHaveNoDot(ip);
    DigitsHaveNoDot(t);
    ScaleDownOfDigits(v, ip, t, d);
    var r := ScaleDown(v, [], d, true);
    if t != [] {
      FirstPieceOfDotted(ip, t);
      FirstPieceOfUndotted(t);
    } else {
      FirstPieceOfUndotted(ip);
    }
    TrimTrailingZerosIdentity(t);
    SplitOfPieces(r, ip, t);
  }

  lemma ScaleUpOfScaledDown(v: string, d: nat, truncate: bool)
    requires IsDigits(v) && v != [] && NoLeadingZero(v)
    ensures var ip := IntegerPart(v, d);
      var t := TrimTrailingZeros(ScaledFraction(v, d));
      var r := ScaleUp(TrimLeadingZeros(ip), t, d, truncate);
      IsDigits(r) && TrimLeadingZeros(r) == v
  {
    if |v| > d {
      ScaleUpOfScaledDownLong(v, d, truncate);
    } else {
      ScaleUpOfScaledDownShort(v, d, truncate);
    }
  }

  /** More digits than the scale: the integer part is non-empty and the
      scaled-up text is `v` itself. */
  lemma ScaleUpOfScaledDownLong(v: string, d: nat, truncate: bool)
    requires IsDigits(v) && NoLeadingZero(v) && |v| > d
    ensures ScaleUp(TrimLeadingZeros(IntegerPart(v, d)), TrimTrailingZeros(ScaledFraction(v, d)), d, truncate) == v
  {
    var ip := IntegerPart(v, d);
    var sf := ScaledFraction(v, d);
    var t := TrimTrailingZeros(sf);
    assert TrimLeadingZeros(ip) == ip by {
      assert ip[0] == v[0];
      TrimLeadingZerosIdentity(ip);
    }
    var r := ScaleUp(ip, t, d, truncate);
    assert r == ip + (t + Zeros(d - |t|)) by {
      ScaleUpFits(ip, t, d, truncate);
    }
    assert t + Zeros(d - |t|) == sf;
    assert ip + sf == v by {
      assert v == v[..|v| - d] + v[|v| - d..];
    }
  }

  /** At most as many digits as the scale: the integer part is "0" and the
      scaled-up text is `v` with leading zeros up to length `d`. */
  lemma ScaleUpOfScaledDownShort(v: string, d: nat, truncate: bool)
    requires IsDigits(v) && v != [] && NoLeadingZero(v) && |v| <= d
    ensures var r := ScaleUp(TrimLeadingZeros(IntegerPart(v, d)), TrimTrailingZeros(ScaledFraction(v, d)), d, truncate);
      IsDigits(r) && TrimLeadingZeros(r) == v
  {
    var sf := ScaledFraction(v, d);
    var t := TrimTrailingZeros(sf);
    var padded := Zeros(d - |v|) + v;
    ShortScaledFraction(v, d);
    ShortIntegerPart(v, d);
    var r := ScaleUp(TrimLeadingZeros(IntegerPart(v, d)), t, d, truncate);
    assert r == sf by {
      ScaleUpWithoutWhole(t, d, truncate);
    }
    assert r == padded;
    PaddedDigits(d - |v|, v);
  }

  lemma ShortScaledFraction(v: string, d: nat)
    requires v != [] && NoLeadingZero(v) && |v| <= d
    ensures ScaledFraction(v, d) == Zeros(d - |v|) + v
    ensures TrimTrailingZeros(ScaledFraction(v, d)) != []
  {
    var sf := ScaledFraction(v, d);
    assert sf[d - |v|] == v[0];
    TrimTrailingZerosNonEmpty(sf);
  }

  lemma ShortIntegerPart(v: string, d: nat)
    requires |v| <= d
    ensures TrimLeadingZeros(IntegerPart(v, d)) == []
  {
    assert IntegerPart(v, d) == Zeros(1) + [];
    TrimLeadingZerosOfPadded(1, []);
  }

  lemma ScaleUpWithoutWhole(t: string, d: nat, truncate: bool)
    requires t != [] && |t| <= d
    ensures ScaleUp([], t, d, truncate) == t + Zeros(d - |t|)
  {
    ScaleUpFits([], t, d, truncate);
  }

  /** Leading zeros keep a digit string a digit string and trim away again. */
  lemma PaddedDigits(k: nat, v: string)
    requires IsDigits(v) && NoLeadingZero(v)
    ensures IsDigits(Zeros(k) + v) && TrimLeadingZeros(Zeros(k) + v) == v
  {
    TrimLeadingZerosOfPadded(k, v);
    TrimLeadingZerosIdentity(v);
    DecimalValueOfPadded(k, v);
  }
}

=== FILE: options.dfy ===
/** Failure-carrying wrappers shared by the modules of this model.
- Option<T> stands for a JavaScript value that may be `undefined`/`null`, and for
  "the callback fired with this value" versus "nothing happened".
- Result<T, E> stands for a call that either returns or throws.
 */
module Options {

  datatype Option<+T> = None | Some(value: T)

  datatype Result<+T, +E> = Success(value: T) | Failure(error: E)
}

=== FILE: provider.dfy ===
/** The two reducers of src/token-wrapper/providers/TokenWrapperProvider.js
    that shape what the connector delivers before it is stored.

    `new BN(x)` is taken to have already produced a natural number: a raw
    holder's balance, a raw token's decimals and total supply arrive here as
    `nat`. `Option` stands for a value that may be `null`/`undefined`.
 */
module TokenWrapperProvider {
  import opened Options
  import Digits
  import opened Addresses
  import MathUtils

  /** A holder as the connector delivers it; `otherFields` are dropped by the reducer. */
  datatype RawHolder = RawHolder(address: Address, balance: nat, otherFields: map<string, string>)

  datatype Holder = Holder(address: Address, balance: nat)

  /** A token as the connector delivers it. A falsy `totalSupply` is `None`. */
  datatype RawToken = RawToken(id: Address, name: string, symbol: string, decimals: nat, totalSupply: Option<nat>)

  datatype Token = Token(
    id: Address,
    name: string,
    symbol: string,
    decimals: nat,
    numDecimals: nat,
    tokenDecimalsBase: nat,
    totalSupply: Option<nat>)

  function ToHolder(h: RawHolder): Holder {
    Holder(h.address, h.balance)
  }

  /** The `.map` step of `reduceHolders`. */
  function MapHolders(hs: seq<RawHolder>): (r: seq<Holder>)
    ensures |r| == |hs|
    ensures forall i :: 0 <= i < |r| ==> r[i] == ToHolder(hs[i])
  {
    if hs == [] then [] else [ToHolder(hs[0])] + MapHolders(hs[1..])
  }

  predicate SortedByBalanceDesc(s: seq<Holder>) {
    forall i, j :: 0 <= i < j < |s| ==> s[i].balance >= s[j].balance
  }

  /** Inserts `h` before the first holder with a smaller balance. */
  function InsertByBalance(h: Holder, s: seq<Holder>): (r: seq<Holder>)
    requires SortedByBalanceDesc(s)
    ensures SortedByBalanceDesc(r)
    ensures multiset(r) == multiset(s) + multiset{h}
    ensures |r| == |s| + 1
  {
    if s == [] || h.balance >= s[0].balance then
      [h] + s
    else
      var rest := InsertByBalance(h, s[1..]);
      assert s == [s[0]] + s[1..];
      BoundedAfterInsert(s[0].balance, h, s[1..], rest);
      [s[0]] + rest
  }

  lemma BoundedAfterInsert(bound: nat, h: Holder, s: seq<Holder>, rest: seq<Holder>)
    requires h.balance <= bound
    requires forall i :: 0 <= i < |s| ==> s[i].balance <= bound
    requires multiset(rest) == multiset(s) + multiset{h}
    ensures forall k :: 0 <= k < |rest| ==> rest[k].balance <= bound
  {
    forall k | 0 <= k < |rest| ensures rest[k].balance <= bound {
      assert rest[k] in multiset(rest);
      if rest[k] != h {
        assert rest[k] in multiset(s);
        var i :| 0 <= i < |s| && s[i] == rest[k];
      }
    }
  }

  /** The sort step of `reduceHolders`: holders by balance, largest first. */
  function SortByBalanceDesc(s: seq<Holder>): (r: seq<Holder>)
    ensures SortedByBalanceDesc(r)
    ensures multiset(r) == multiset(s)
    ensures |r| == |s|
  {
    if s == [] then []
    else
      assert s == [s[0]] + s[1..];
      InsertByBalance(s[0], SortByBalanceDesc(s[1..]))
  }

  /** `reduceHolders`: `[]` for a missing list; otherwise every holder as
      `{address, balance}`, sorted by balance in non-increasing order, none
      lost and none duplicated. */
  function ReduceHolders(holders: Option<seq<RawHolder>>): (r: seq<Holder>)
    ensures holders.None? ==> r == []
    ensures holders.Some? ==>
      && |r| == |holders.value|
      && SortedByBalanceDesc(r)
      && multiset(r) == multiset(MapHolders(holders.value))
  {
    match holders
    case None => []
    case Some(hs) => SortByBalanceDesc(MapHolders(hs))
  }

  /** Each reduced holder is the `{address, balance}` of some input holder,
      and each input holder appears in the output. */
  lemma ReduceHoldersKeepsHolders(hs: seq<RawHolder>)
    ensures forall k :: 0 <= k < |ReduceHolders(Some(hs))| ==>
      exists j :: 0 <= j < |hs| && ReduceHolders(Some(hs))[k] == ToHolder(hs[j])
    ensures forall j :: 0 <= j < |hs| ==> ToHolder(hs[j]) in ReduceHolders(Some(hs))
  {
    var r := ReduceHolders(Some(hs));
    var m := MapHolders(hs);
    forall k | 0 <= k < |r|
      ensures exists j :: 0 <= j < |hs| && r[k] == ToHolder(hs[j])
    {
      assert r[k] in multiset(r);
      assert r[k] in multiset(m);
      var j :| 0 <= j < |m| && m[j] == r[k];
      assert r[k] == ToHolder(hs[j]);
    }
    forall j | 0 <= j < |hs| ensures ToHolder(hs[j]) in r {
      assert m[j] in multiset(m);
      assert m[j] in multiset(r);
    }
  }

  /** `reduceToken`: `null` for a missing token; otherwise the token with
      `numDecimals` equal to its decimals, `tokenDecimalsBase` equal to 10^decimals
      (a '1' followed by `decimals` zeros), the total supply kept when present
      and left falsy when absent, and every other field unchanged. */
  function ReduceToken(token: Option<RawToken>): (r: Option<Token>)
    ensures r.None? <==> token.None?
    ensures r.Some? ==>
      var t := token.value;
      && r.value.id == t.id && r.value.name == t.name && r.value.symbol == t.symbol
      && r.value.decimals == t.decimals
      && r.value.numDecimals == t.decimals
      && Digits.NatToDecimal(r.value.tokenDecimalsBase) == "1" + Digits.Zeros(t.decimals)
      && r.value.totalSupply == t.totalSupply
  {
    match token
    case None => None
    case Some(t) =>
      Digits.NatToDecimalPow10(t.decimals);
      Some(Token(
        id := t.id,
        name := t.name,
        symbol := t.symbol,
        decimals := t.decimals,
        numDecimals := t.decimals,
        tokenDecimalsBase := Digits.Pow10(t.decimals),
        totalSupply := t.totalSupply))
  }

  /** The decimals base is exactly one whole token: read at the token's scale
      it is "1", and "1" scaled up is the base. */
  lemma DecimalsBaseIsOneToken(t: RawToken)
    ensures var base := ReduceToken(Some(t)).value.tokenDecimalsBase;
      && MathUtils.FromDecimals(Digits.NatToDecimal(base), t.decimals, true) == "1"
      && MathUtils.ToDecimals("1", t.decimals, true) == Digits.NatToDecimal(base)
  {
    var d := t.decimals;
    var base := ReduceToken(Some(t)).value.tokenDecimalsBase;
    var n := Digits.NatToDecimal(base);
    assert n == "1" + Digits.Zeros(d);
    MathUtils.SplitCanonical("1", []);
    assert MathUtils.Canonical("1", []) == "1";
    MathUtils.RoundTripToFrom("1", [], d, true);
    MathUtils.ScaleUpCases("1", [], d, true);
    assert "1" + [] + Digits.Zeros(d - 0) == n;
  }
}

=== FILE: tx_utils.dfy ===
/** The gas-limit recommender of src/utils/tx-utils.js.

    Per chain there is a gas profile: the block gas limit, a fallback limit
    used when the provider cannot estimate, and a fuzz factor that pads a
    successful estimate. The provider's estimate is an input here: either a
    number of gas units or a failed estimation.

    The source multiplies by the doubles 1.25, 1.5 and 0.95 and rounds with
    `Math.round`. A factor is written here as an exact ratio, and
    `Math.round(x)` for x >= 0 as floor(x + 1/2).
 */
module TxUtils {
  import opened Options

  type Pos = n: nat | n > 0 witness 1

  /** An exact non-negative rational factor num/den. */
  datatype Ratio = Ratio(num: nat, den: Pos)

  const DefaultGasLimit: nat := 450000
  /** 1.5 */
  const DefaultGasFuzzFactor: Ratio := Ratio(3, 2)
  /** 0.95 */
  const BlockGasLimitFactor: Ratio := Ratio(19, 20)

  datatype GasProfile = GasProfile(blockGasLimit: nat, gasLimit: nat, gasFuzzFactor: Ratio)

  /** `NETWORK_GAS_DATA`, keyed by chain id. */
  const NetworkGasData: map<int, GasProfile> := map[
    1 := GasProfile(15000000, DefaultGasLimit, Ratio(5, 4)),
    10 := GasProfile(30000000, DefaultGasLimit, DefaultGasFuzzFactor),
    100 := GasProfile(30000000, DefaultGasLimit, DefaultGasFuzzFactor)
  ]

  /** What `provider.estimateGas(tx)` settled to. */
  datatype Estimation = Estimated(gas: nat) | EstimationFailed

  /** Destructuring `NETWORK_GAS_DATA[chainId]` when it is undefined throws. */
  datatype GasError = UnsupportedNetwork(chainId: int)

  /** `Math.round(x * q)` for x >= 0: the integer nearest to x*q, halves rounded up. */
  function RoundTimes(x: nat, q: Ratio): (r: nat)
    ensures 2 * q.den * r <= 2 * x * q.num + q.den < 2 * q.den * (r + 1)
  {
    var n := 2 * x * q.num + q.den;
    var m := 2 * q.den;
    var r := n / m;
    assert n == m * r + n % m;
    r
  }

  /** The upper gas bound: the profile's block gas limit times 0.95, rounded. */
  function UpperGasLimit(p: GasProfile): nat {
    RoundTimes(p.blockGasLimit, BlockGasLimitFactor)
  }

  /** `getRecommendedGasLimit(chainId, provider, tx)`. */
  function GetRecommendedGasLimit(chainId: int, estimation: Estimation): (r: Result<nat, GasError>)
    ensures r.Failure? <==> chainId !in NetworkGasData
  {
    if chainId !in NetworkGasData then Failure(UnsupportedNetwork(chainId))
    else
      var profile := NetworkGasData[chainId];
      match estimation
      case EstimationFailed => Success(profile.gasLimit)
      case Estimated(estimatedGas) =>
        var upperGasLimit := UpperGasLimit(profile);
        if estimatedGas > upperGasLimit then Success(estimatedGas)
        else
          var bufferedGasLimit := RoundTimes(estimatedGas, profile.gasFuzzFactor);
          Success(if bufferedGasLimit < upperGasLimit then bufferedGasLimit else upperGasLimit)
  }

  // ---------------- properties ----------------

  /** Exactly the chains 1, 10 and 100 have a gas profile; any other chain
      fails whatever the provider would have said. */
  lemma UnsupportedNetworkFails(chainId: int, estimation: Estimation)
    ensures chainId in NetworkGasData <==> chainId in {1, 10, 100}
    ensures chainId !in {1, 10, 100} ==>
      GetRecommendedGasLimit(chainId, estimation) == Failure(UnsupportedNetwork(chainId))
  {
  }

  /** A failed estimation is not an error: the profile's default of 450000 is returned. */
  lemma EstimationFailureFallsBack(chainId: int)
    requires chainId in {1, 10, 100}
    ensures GetRecommendedGasLimit(chainId, EstimationFailed) == Success(450000)
  {
  }

  /** The upper bound is 95% of the block gas limit: 14,250,000 on chain 1
      and 28,500,000 on chains 10 and 100. Every fuzz factor is at least 1. */
  lemma ProfileBounds()
    ensures UpperGasLimit(NetworkGasData[1]) == 14250000
    ensures UpperGasLimit(NetworkGasData[10]) == 28500000
    ensures UpperGasLimit(NetworkGasData[100]) == 28500000
    ensures forall c :: c in NetworkGasData ==>
      NetworkGasData[c].gasFuzzFactor.num >= NetworkGasData[c].gasFuzzFactor.den
  {
  }

  /** An estimate above the upper bound is passed through uncapped. */
  lemma LargeEstimatePassesThrough(chainId: int, estimatedGas: nat)
    requires chainId in NetworkGasData
    requires estimatedGas > UpperGasLimit(NetworkGasData[chainId])
    ensures GetRecommendedGasLimit(chainId, Estimated(estimatedGas)) == Success(estimatedGas)
  {
  }

  /** An estimate at or below the upper bound is fuzzed and clamped: the
      result lies between the estimate and the upper bound. */
  lemma SmallEstimateIsClamped(chainId: int, estimatedGas: nat)
    requires chainId in NetworkGasData
    requires estimatedGas <= UpperGasLimit(NetworkGasData[chainId])
    ensures var p := NetworkGasData[chainId];
      var upper := UpperGasLimit(p);
      var fuzzed := RoundTimes(estimatedGas, p.gasFuzzFactor);
      var r := GetRecommendedGasLimit(chainId, Estimated(estimatedGas));
      && r == Success(if fuzzed < upper then fuzzed else upper)
      && estimatedGas <= r.value <= upper
  {
    var q := NetworkGasData[chainId].gasFuzzFactor;
    ProfileBounds();
    RoundTimesAtLeast(estimatedGas, q);
  }

  /** A factor of at least 1 never rounds an amount down. */
  lemma RoundTimesAtLeast(x: nat, q: Ratio)
    requires q.num >= q.den
    ensures RoundTimes(x, q) >= x
  {
    var r := RoundTimes(x, q);
    MulMonotonic(q.den, q.num, 2 * x);
    assert (2 * q.den) * x < (2 * q.den) * (r + 1);
    MulCancel(x, r + 1, 2 * q.den);
  }

  /** Rounding after multiplying by a fixed factor is monotonic. */
  lemma RoundTimesMonotonic(x: nat, y: nat, q: Ratio)
    requires x <= y
    ensures RoundTimes(x, q) <= RoundTimes(y, q)
  {
    var a, b := RoundTimes(x, q), RoundTimes(y, q);
    MulMonotonic(x, y, 2 * q.num);
    assert (2 * q.den) * a < (2 * q.den) * (b + 1);
    MulCancel(a, b + 1, 2 * q.den);
  }

  lemma {:induction false} MulMonotonic(a: nat, b: nat, k: nat)
    requires a <= b
    ensures a * k <= b * k
  {
    if k > 0 {
      MulMonotonic(a, b, k - 1);
      assert a * k == a * (k - 1) + a && b * k == b * (k - 1) + b;
    }
  }

  lemma MulCancel(a: nat, b: nat, k: nat)
    requires k * a < k * b
    ensures a < b
  {
    if b <= a {
      MulMonotonic(b, a, k);
    }
  }

  /** The recommended limit never decreases as a successful estimate grows. */
  lemma RecommendationMonotonic(chainId: int, e1: nat, e2: nat)
    requires chainId in NetworkGasData
    requires e1 <= e2
    ensures GetRecommendedGasLimit(chainId, Estimated(e1)).value
         <= GetRecommendedGasLimit(chainId, Estimated(e2)).value
  {
    var p := NetworkGasData[chainId];
    var upper := UpperGasLimit(p);
    if e2 <= upper {
      RoundTimesMonotonic(e1, e2, p.gasFuzzFactor);
    } else if e1 <= upper {
      SmallEstimateIsClamped(chainId, e1);
    }
  }

  /** On a network with a 30,000,000 block limit and a 1.5 fuzz factor, an
      estimate of 1,000,000 gives 1,500,000 and one of 29,000,000 (above the
      28,500,000 bound) comes back unchanged. */
  lemma GasExamples()
    ensures GetRecommendedGasLimit(100, Estimated(1000000)) == Success(1500000)
    ensures GetRecommendedGasLimit(100, Estimated(29000000)) == Success(29000000)
    ensures GetRecommendedGasLimit(1, Estimated(1000000)) == Success(1250000)
  {
  }
}

=== FILE: withdrawal.dfy ===
/** The decision logic of the withdrawal form in
    src/apps/finance/components/ModalFlows/Withdrawal.js: which tokens are
    offered, how each edit changes the form state, what a submit does, the
    message shown and when the submit button is disabled.

    `isAddress` comes from a UI library and is an input here. Rendering,
    focus handling and the `next`/`onWithdraw` callbacks are not modelled:
    a successful submit is the request that would be passed to `onWithdraw`.
 */
module Withdrawal {
  import opened Options
  import opened Digits
  import opened Addresses
  import MathUtils

  /** The four error symbols a field can carry. */
  datatype FieldError = NoError | RecipientNotAddress | BalanceNotEnough | DecimalsTooMany

  datatype Field = Field(error: FieldError, value: string)

  datatype FormState = FormState(amount: Field, recipient: Field, reference: string, selectedToken: int)

  const NullSelectedToken: int := -1

  /** A token the form can withdraw; `balance` is in the token's smallest unit. */
  datatype Token = Token(address: Address, name: string, symbol: string, decimals: nat, balance: nat)

  /** The form's state when it opens. */
  const InitialState: FormState :=
    FormState(Field(NoError, ""), Field(NoError, ""), "", NullSelectedToken)

  // ---------------- offered tokens ----------------

  /** `nonZeroTokens()`: the tokens whose balance is not zero, in their order. */
  function NonZeroTokens(tokens: seq<Token>): (r: seq<Token>)
    ensures |r| <= |tokens|
    ensures forall t :: t in r <==> t in tokens && t.balance != 0
  {
    if tokens == [] then []
    else if tokens[0].balance == 0 then NonZeroTokens(tokens[1..])
    else [tokens[0]] + NonZeroTokens(tokens[1..])
  }

  /** Filtering keeps the relative order: it distributes over concatenation. */
  lemma {:induction false} NonZeroTokensAppend(a: seq<Token>, b: seq<Token>)
    ensures NonZeroTokens(a + b) == NonZeroTokens(a) + NonZeroTokens(b)
  {
    if a != [] {
      assert (a + b)[1..] == a[1..] + b;
      NonZeroTokensAppend(a[1..], b);
    } else {
      assert a + b == b;
    }
  }

  /** Filtering twice is filtering once. */
  lemma {:induction false} NonZeroTokensIdempotent(tokens: seq<Token>)
    ensures NonZeroTokens(NonZeroTokens(tokens)) == NonZeroTokens(tokens)
  {
    if tokens != [] {
      NonZeroTokensIdempotent(tokens[1..]);
      if tokens[0].balance != 0 {
        var rest := NonZeroTokens(tokens[1..]);
        assert ([tokens[0]] + rest)[1..] == rest;
      }
    }
  }

  /** `tokens[index]`: undefined for every index outside the array, -1 included. */
  function TokenAt(tokens: seq<Token>, index: int): (r: Option<Token>)
    ensures r.Some? <==> 0 <= index < |tokens|
    ensures r.Some? ==> r.value == tokens[index] && r.value in tokens
  {
    if 0 <= index < |tokens| then Some(tokens[index]) else None
  }

  // ---------------- field edits ----------------

  function HandleAmountUpdate(s: FormState, value: string): (r: FormState)
    ensures r.amount == Field(NoError, value)
    ensures r.recipient == s.recipient && r.reference == s.reference && r.selectedToken == s.selectedToken
  {
    s.(amount := Field(NoError, value))
  }

  function HandleSelectToken(s: FormState, index: int): (r: FormState)
    ensures r.selectedToken == index
    ensures r.amount == s.amount && r.recipient == s.recipient && r.reference == s.reference
  {
    s.(selectedToken := index)
  }

  function HandleRecipientUpdate(s: FormState, value: string): (r: FormState)
    ensures r.recipient == Field(NoError, value)
    ensures r.amount == s.amount && r.reference == s.reference && r.selectedToken == s.selectedToken
  {
    s.(recipient := Field(NoError, value))
  }

  function HandleReferenceUpdate(s: FormState, value: string): (r: FormState)
    ensures r.reference == value
    ensures r.amount == s.amount && r.recipient == s.recipient && r.selectedToken == s.selectedToken
  {
    s.(reference := value)
  }

  // ---------------- String.prototype.trim ----------------

  /** The WhiteSpace and LineTerminator code points that `trim` removes. */
  predicate IsTrimmable(c: char) {
    || c == '\t' || c == '\n' || c == '\U{000B}' || c == '\U{000C}' || c == '\r' || c == ' '
    || c == '\U{00A0}' || c == '\U{1680}' || ('\U{2000}' <= c <= '\U{200A}')
    || c == '\U{2028}' || c == '\U{2029}' || c == '\U{202F}' || c == '\U{205F}'
    || c == '\U{3000}' || c == '\U{FEFF}'
  }

  function TrimStart(s: string): (r: string)
    ensures |r| <= |s| && r == s[|s| - |r|..]
    ensures forall i :: 0 <= i < |s| - |r| ==> IsTrimmable(s[i])
    ensures r == [] || !IsTrimmable(r[0])
  {
    if s != [] && IsTrimmable(s[0]) then TrimStart(s[1..]) else s
  }

  function TrimEnd(s: string): (r: string)
    ensures |r| <= |s| && r == s[..|r|]
    ensures forall i :: |r| <= i < |s| ==> IsTrimmable(s[i])
    ensures r == [] || !IsTrimmable(r[|r| - 1])
  {
    if s != [] && IsTrimmable(s[|s| - 1]) then TrimEnd(s[..|s| - 1]) else s
  }

  /** `s[i..j]` drops only white space from the two ends of `s`. */
  predicate TrimmedSlice(s: string, i: nat, j: nat) {
    && i <= j <= |s|
    && (forall k :: 0 <= k < i ==> IsTrimmable(s[k]))
    && (forall k :: j <= k < |s| ==> IsTrimmable(s[k]))
  }

  /** `s.trim()`: `s` with its leading and trailing white space removed. */
  function Trim(s: string): (r: string)
    ensures exists i: nat, j: nat :: TrimmedSlice(s, i, j) && r == s[i..j]
    ensures r == [] || (!IsTrimmable(r[0]) && !IsTrimmable(r[|r| - 1]))
  {
    TrimIsSlice(s);
    TrimLeavesNoSpaceAtEnds(s);
    TrimStart(TrimEnd(s))
  }

  lemma TrimIsSlice(s: string)
    ensures var r := TrimStart(TrimEnd(s));
      exists i: nat, j: nat :: TrimmedSlice(s, i, j) && r == s[i..j]
  {
    var e := TrimEnd(s);
    var r := TrimStart(e);
    var i := |e| - |r|;
    assert r == s[i..|e|];
    assert TrimmedSlice(s, i, |e|) by {
      forall k | 0 <= k < i ensures IsTrimmable(s[k]) {
        assert s[k] == e[k];
      }
    }
  }

  lemma TrimLeavesNoSpaceAtEnds(s: string)
    ensures var r := TrimStart(TrimEnd(s));
      r == [] || (!IsTrimmable(r[0]) && !IsTrimmable(r[|r| - 1]))
  {
    var e := TrimEnd(s);
    var r := TrimStart(e);
    assert r != [] ==> r[|r| - 1] == e[|e| - 1];
  }

  /** A string without white space at either end is its own trim. */
  lemma TrimNoOp(s: string)
    requires s == [] || (!IsTrimmable(s[0]) && !IsTrimmable(s[|s| - 1]))
    ensures Trim(s) == s
  {
  }

  /** Trimming is idempotent. */
  lemma TrimIdempotent(s: string)
    ensures Trim(Trim(s)) == Trim(s)
  {
    TrimNoOp(Trim(s));
  }

  // ---------------- Number(adjustedAmount) > token.balance ----------------

  /** `Number(a) > balance` for the strings the converter produces, with exact
      arithmetic: a string of digits with at most one '.' (not the lone ".")
      compares by its value and the empty string is 0; anything else is NaN,
      and a comparison with NaN is false. */
  predicate NumberExceeds(a: string, balance: nat) {
    if '.' !in a then
      IsDigits(a) && DecimalValue(a) > balance
    else
      var w := MathUtils.FirstPiece(a);
      var f := MathUtils.AfterFirstDot(a);
      && IsDigits(w) && IsDigits(f) && (w != [] || f != [])
      && (DecimalValue(w) > balance || (DecimalValue(w) == balance && !AllZeros(f)))
  }

  // ---------------- submit ----------------

  datatype WithdrawRequest = WithdrawRequest(tokenAddress: Address, recipient: Address, amount: string, reference: string)

  /** What a submit does: `Threw` when no token sits at the selected index
      (reading `token.decimals` of undefined), `Rejected` with the state
      carrying the new error, or `Submitted` with the arguments of `onWithdraw`
      while the state is left as it was. */
  datatype SubmitOutcome = Threw | Rejected(state: FormState) | Submitted(request: WithdrawRequest)

  /** `handleSubmit`. */
  function HandleSubmit(s: FormState, tokens: seq<Token>, isAddress: string -> bool): (r: SubmitOutcome)
    ensures r.Threw? <==> TokenAt(NonZeroTokens(tokens), s.selectedToken).None?
    ensures !r.Threw? ==>
      var token := NonZeroTokens(tokens)[s.selectedToken];
      var recipient := Trim(s.recipient.value);
      var adjusted := MathUtils.ToDecimals(s.amount.value, token.decimals, false);
      var tooBig := NumberExceeds(adjusted, token.balance);
      && (!isAddress(recipient) ==>
            r == Rejected(s.(recipient := s.recipient.(error := RecipientNotAddress))))
      && (isAddress(recipient) && tooBig ==>
            r == Rejected(s.(amount := s.amount.(error := BalanceNotEnough))))
      && (isAddress(recipient) && !tooBig && '.' in adjusted ==>
            r == Rejected(s.(amount := s.amount.(error := DecimalsTooMany))))
      && (isAddress(recipient) && !tooBig && '.' !in adjusted ==>
            r == Submitted(WithdrawRequest(token.address, recipient, adjusted, s.reference)))
  {
    var toks := NonZeroTokens(tokens);
    match TokenAt(toks, s.selectedToken)
    case None => Threw
    case Some(token) =>
      var recipientAddress := Trim(s.recipient.value);
      var adjustedAmount := MathUtils.ToDecimals(s.amount.value, token.decimals, false);
      var amountTooBig := NumberExceeds(adjustedAmount, token.balance);
      if !isAddress(recipientAddress) then
        Rejected(s.(recipient := s.recipient.(error := RecipientNotAddress)))
      else if amountTooBig || '.' in adjustedAmount then
        Rejected(s.(amount := s.amount.(error := if amountTooBig then BalanceNotEnough else DecimalsTooMany)))
      else
        Submitted(WithdrawRequest(token.address, recipientAddress, adjustedAmount, s.reference))
  }

  /** An accepted withdrawal goes to a valid trimmed address, for a selected
      non-zero token, with a '.'-free amount that, when it is a digit string,
      does not exceed the token's balance. */
  lemma SubmittedRequestIsValid(s: FormState, tokens: seq<Token>, isAddress: string -> bool)
    requires HandleSubmit(s, tokens, isAddress).Submitted?
    ensures var q := HandleSubmit(s, tokens, isAddress).request;
      var token := NonZeroTokens(tokens)[s.selectedToken];
      && isAddress(q.recipient)
      && (q.recipient == [] || (!IsTrimmable(q.recipient[0]) && !IsTrimmable(q.recipient[|q.recipient| - 1])))
      && token in tokens && token.balance != 0
      && q.tokenAddress == token.address
      && '.' !in q.amount
      && (IsDigits(q.amount) ==> DecimalValue(q.amount) <= token.balance)
  {
  }

  /** A bad recipient is reported whatever the amount says, and the amount's
      error is left as it was. */
  lemma RecipientCheckedFirst(s: FormState, tokens: seq<Token>, isAddress: string -> bool)
    requires 0 <= s.selectedToken < |NonZeroTokens(tokens)|
    requires !isAddress(Trim(s.recipient.value))
    ensures HandleSubmit(s, tokens, isAddress).Rejected?
    ensures var t := HandleSubmit(s, tokens, isAddress).state;
      t.recipient.error == RecipientNotAddress && t.amount == s.amount
  {
    RecipientRejection(s, tokens, isAddress);
  }

  lemma RecipientRejection(s: FormState, tokens: seq<Token>, isAddress: string -> bool)
    requires 0 <= s.selectedToken < |NonZeroTokens(tokens)|
    requires !isAddress(Trim(s.recipient.value))
    ensures HandleSubmit(s, tokens, isAddress) == Rejected(s.(recipient := s.recipient.(error := RecipientNotAddress)))
  {
  }

  /** An amount that is both too big and too precise is reported as too big. */
  lemma BalanceCheckedBeforeDecimals(s: FormState, tokens: seq<Token>, isAddress: string -> bool)
    requires 0 <= s.selectedToken < |NonZeroTokens(tokens)|
    requires isAddress(Trim(s.recipient.value))
    requires var token := NonZeroTokens(tokens)[s.selectedToken];
      NumberExceeds(MathUtils.ToDecimals(s.amount.value, token.decimals, false), token.balance)
    ensures HandleSubmit(s, tokens, isAddress) == Rejected(s.(amount := s.amount.(error := BalanceNotEnough)))
  {
  }

  /** With a valid recipient and a token of 0 decimals, "1.5" is too big for
      a balance of 1 and too precise for a balance of 2, while ".5" is
      accepted as an amount of "0": at scale 0 the converter drops a fraction
      that has no whole digits in front of it. */
  lemma SubmitExamples(isAddress: string -> bool)
    requires isAddress("0xabc")
    ensures var s := FormState(Field(NoError, "1.5"), Field(NoError, " 0xabc "), "", 0);
      var u := s.(amount := Field(NoError, ".5"));
      var one := [Token("0xt", "T", "T", 0, 1)];
      var two := [Token("0xt", "T", "T", 0, 2)];
      && HandleSubmit(s, one, isAddress) == Rejected(s.(amount := s.amount.(error := BalanceNotEnough)))
      && HandleSubmit(s, two, isAddress) == Rejected(s.(amount := s.amount.(error := DecimalsTooMany)))
      && HandleSubmit(u, one, isAddress) == Submitted(WithdrawRequest("0xt", "0xabc", "0", ""))
  {
    TrimExample();
    MathUtils.ToDecimalsScaleZeroDropsFraction();
    NumberExceedsExamples();
    var s := FormState(Field(NoError, "1.5"), Field(NoError, " 0xabc "), "", 0);
    var u := s.(amount := Field(NoError, ".5"));
    var one := [Token("0xt", "T", "T", 0, 1)];
    var two := [Token("0xt", "T", "T", 0, 2)];
    assert NonZeroTokens(one) == one;
    assert NonZeroTokens(two) == two;
  }

  lemma TrimExample()
    ensures Trim(" 0xabc ") == "0xabc"
  {
    var a, b, c := " 0xabc ", " 0xabc", "0xabc";
    assert a[..|a| - 1] == b && IsTrimmable(a[|a| - 1]) && !IsTrimmable(b[|b| - 1]);
    assert TrimEnd(b) == b;
    assert TrimEnd(a) == b;
    assert b[1..] == c && IsTrimmable(b[0]) && !IsTrimmable(c[0]);
    assert TrimStart(c) == c;
    assert TrimStart(b) == c;
  }

  lemma NumberExceedsExamples()
    ensures NumberExceeds("1.5", 1) && !NumberExceeds("1.5", 2) && !NumberExceeds("0", 1)
  {
    assert "1.5" == "1" + "." + "5";
    MathUtils.FirstPieceOfDotted("1", "5");
    assert MathUtils.AfterFirstDot("1.5") == "5";
    assert DecimalValue("1") == 1;
    assert DecimalValue("0") == 0;
  }

  // ---------------- the maximum button ----------------

  /** `setMaxUserBalance`: the selected token's balance written at the token's
      scale becomes the amount; the amount's error is kept. No token at the
      selected index throws, here `None`. Scaled back up, the new amount
      denotes the balance exactly. */
  function SetMaxUserBalance(s: FormState, tokens: seq<Token>): (r: Option<FormState>)
    ensures r.Some? <==> TokenAt(NonZeroTokens(tokens), s.selectedToken).Some?
    ensures r.Some? ==>
      var token := NonZeroTokens(tokens)[s.selectedToken];
      var back := MathUtils.ToDecimals(r.value.amount.value, token.decimals, false);
      && r.value.amount.error == s.amount.error
      && r.value.recipient == s.recipient && r.value.reference == s.reference
      && r.value.selectedToken == s.selectedToken
      && IsDigits(back) && DecimalValue(back) == token.balance
  {
    match TokenAt(NonZeroTokens(tokens), s.selectedToken)
    case None => None
    case Some(token) =>
      var balance := NatToDecimal(token.balance);
      var adjustedAmount := MathUtils.FromDecimals(balance, token.decimals, true);
      MaxAmountDenotesBalance(balance, token.decimals);
      Some(s.(amount := s.amount.(value := adjustedAmount)))
  }

  /** Scaling `n.toString()` down and back up without truncation gives a
      digit string of the same value. */
  lemma MaxAmountDenotesBalance(n: string, d: nat)
    requires IsDigits(n)
    ensures var back := MathUtils.ToDecimals(MathUtils.FromDecimals(n, d, true), d, false);
      IsDigits(back) && DecimalValue(back) == DecimalValue(n)
  {
    var back := MathUtils.ToDecimals(MathUtils.FromDecimals(n, d, true), d, false);
    MathUtils.RoundTripFromTo(n, d, false);
    DecimalValueOfTrimmed(n);
    DecimalValueOfTrimmed(back);
  }

  /** Pressing the maximum button and then submitting to a valid recipient
      withdraws the whole balance: the request is accepted and its amount is
      the balance in the token's smallest unit, even if an old amount error is
      still shown. */
  lemma MaxThenSubmit(s: FormState, tokens: seq<Token>, isAddress: string -> bool)
    requires 0 <= s.selectedToken < |NonZeroTokens(tokens)|
    requires isAddress(Trim(s.recipient.value))
    ensures SetMaxUserBalance(s, tokens).Some?
    ensures var t := SetMaxUserBalance(s, tokens).value;
      var r := HandleSubmit(t, tokens, isAddress);
      var token := NonZeroTokens(tokens)[s.selectedToken];
      && r.Submitted?
      && IsDigits(r.request.amount)
      && DecimalValue(r.request.amount) == token.balance
  {
    var t := SetMaxUserBalance(s, tokens).value;
    var token := NonZeroTokens(tokens)[s.selectedToken];
    var back := MathUtils.ToDecimals(t.amount.value, token.decimals, false);
    assert t.recipient == s.recipient && t.selectedToken == s.selectedToken;
    DigitsHaveNoDot(back);
    assert !NumberExceeds(back, token.balance);
    var r := HandleSubmit(t, tokens, isAddress);
    assert r == Submitted(WithdrawRequest(token.address, Trim(s.recipient.value), back, t.reference));
  }

  // ---------------- message and submit button ----------------

  const RecipientMessage: string := "Recipient must be a valid Ethereum address"
  const BalanceMessage: string := "Amount is greater than balance available"
  const DecimalsMessage: string := "Amount contains too many decimal places"

  /** The message under the form: the recipient's error first, then a balance
      error, then a decimals error. */
  function ErrorMessage(s: FormState): (r: Option<string>)
    ensures s.recipient.error == RecipientNotAddress ==> r == Some(RecipientMessage)
    ensures s.recipient.error != RecipientNotAddress && s.amount.error == BalanceNotEnough ==>
      r == Some(BalanceMessage)
    ensures s.recipient.error != RecipientNotAddress && s.amount.error == DecimalsTooMany ==>
      r == Some(DecimalsMessage)
    ensures r.None? <==>
      s.recipient.error != RecipientNotAddress && s.amount.error !in {BalanceNotEnough, DecimalsTooMany}
  {
    if s.recipient.error == RecipientNotAddress then Some(RecipientMessage)
    else if s.amount.error == BalanceNotEnough then Some(BalanceMessage)
    else if s.amount.error == DecimalsTooMany then Some(DecimalsMessage)
    else None
  }

  /** The submit button's `disabled` flag: the button is enabled exactly when
      no message is shown, both the recipient and the amount are filled in, a
      token is selected and the fee token balance suffices. */
  function Disabled(s: FormState, enoughFeeTokenBalance: bool): (r: bool)
    ensures !r <==>
      && ErrorMessage(s).None?
      && s.recipient.value != [] && s.amount.value != []
      && s.selectedToken != NullSelectedToken
      && enoughFeeTokenBalance
  {
    || ErrorMessage(s).Some?
    || s.recipient.value == []
    || s.amount.value == []
    || s.selectedToken == NullSelectedToken
    || !enoughFeeTokenBalance
  }

  // ---------------- properties of the form as a whole ----------------

  /** Each field only ever carries its own kinds of error. */
  predicate WellFormed(s: FormState) {
    && s.recipient.error in {NoError, RecipientNotAddress}
    && s.amount.error in {NoError, BalanceNotEnough, DecimalsTooMany}
  }

  /** The form opens well formed, empty and with submit disabled. */
  lemma InitialStateDisabled(enoughFeeTokenBalance: bool)
    ensures WellFormed(InitialState)
    ensures ErrorMessage(InitialState).None?
    ensures Disabled(InitialState, enoughFeeTokenBalance)
  {
  }

  /** Every handler keeps the form well formed. */
  lemma HandlersPreserveWellFormed(s: FormState, v: string, index: int, tokens: seq<Token>, isAddress: string -> bool)
    requires WellFormed(s)
    ensures WellFormed(HandleAmountUpdate(s, v)) && WellFormed(HandleRecipientUpdate(s, v))
    ensures WellFormed(HandleReferenceUpdate(s, v)) && WellFormed(HandleSelectToken(s, index))
    ensures HandleSubmit(s, tokens, isAddress).Rejected? ==> WellFormed(HandleSubmit(s, tokens, isAddress).state)
    ensures SetMaxUserBalance(s, tokens).Some? ==> WellFormed(SetMaxUserBalance(s, tokens).value)
  {
  }

  /** In a well-formed form there is a message exactly when some field has an error. */
  lemma MessageIffError(s: FormState)
    requires WellFormed(s)
    ensures ErrorMessage(s).None? <==> s.recipient.error == NoError && s.amount.error == NoError
  {
  }

  /** A rejected submit always leaves a message on screen and the button
      disabled, and the message names the reason unless an earlier recipient
      error outranks it. */
  lemma RejectionShowsMessage(s: FormState, tokens: seq<Token>, isAddress: string -> bool, fee: bool)
    requires HandleSubmit(s, tokens, isAddress).Rejected?
    ensures var t := HandleSubmit(s, tokens, isAddress).state;
      && ErrorMessage(t).Some?
      && Disabled(t, fee)
      && (t.recipient.error == RecipientNotAddress ==> ErrorMessage(t) == Some(RecipientMessage))
      && (t.recipient.error != RecipientNotAddress && t.amount.error == BalanceNotEnough ==>
            ErrorMessage(t) == Some(BalanceMessage))
  {
  }

  /** Editing the recipient clears the recipient message; editing the amount
      clears any amount message, leaving only a recipient message if there was one. */
  lemma EditingClearsItsMessage(s: FormState, v: string)
    ensures ErrorMessage(HandleRecipientUpdate(s, v)) != Some(RecipientMessage)
    ensures ErrorMessage(HandleAmountUpdate(s, v)) ==
      if s.recipient.error == RecipientNotAddress then Some(RecipientMessage) else None
  {
  }

  /** The `disabled` flag only compares the selection with the null index, so
      a form whose index points past the non-zero tokens can be enabled: here
      index 1 of a single non-zero token. The button is enabled and the submit
      throws. */
  lemma EnabledFormCanThrow(isAddress: string -> bool)
    ensures var s := FormState(Field(NoError, "1"), Field(NoError, "0xabc"), "", 1);
      var tokens := [Token("0xt", "T", "T", 0, 5)];
      && !(0 <= s.selectedToken < |NonZeroTokens(tokens)|)
      && !Disabled(s, true) && HandleSubmit(s, tokens, isAddress).Threw?
  {
    var tokens := [Token("0xt", "T", "T", 0, 5)];
    assert NonZeroTokens(tokens) == tokens;
  }
}
